=== FILE: README.md ===
# pyriffplayer sync engine and offset store, in Dafny

pyriffplayer plays a video together with a separate audio commentary track
(the "riff") and keeps the riff aligned to the video by a constant offset in
milliseconds. Offsets are remembered per pair of files, keyed by content
hashes rather than file names. This project models:

- the content hash (`calculate_hash`) and the offset store of `db_lib.py`:
  the local SQLite store as a map, the remote store under the same contract,
  the hashing front end, and the backend selection (`ContentHash`, `OffsetDb`);
- the synchronisation state of the wxPython frame in `riffplayer.py`: chosen
  files, store, sync flag, offset, and the two media controls reduced to
  position, length and readiness. Its handlers are pure transitions
  (`SyncFrame`). `_FormatTimestamp` is modelled with a parser as its partner
  (`Clock`);
- the pyglet widgets of `gui_lib.py`: hit testing, positioning, buttons, and
  the slider's pixel/value maps and event order (`GuiLib`);
- the earlier single-window player `riff_player.py`: coupled seeking, the
  play/sync toggles, and its own slider variant (`EarlyPlayer`).

Conventions:

- Python exceptions are values. `Result.Failure` stands for an
  `OperationError` or another exception. `Option.None` stands for a
  `ZeroDivisionError` in slider arithmetic.
- A frame handler that lets an exception escape returns a `Step`. The
  `Step` holds the frame as it was at the raise, any error dialog shown, and
  the exception.
- MD5, the file system, SQLite failures, the network, and what a media
  control does on `Load` are parameters:
  - `md5` is an uninterpreted digest function.
  - `fs` maps the readable paths to their bytes.
  - `sqliteFails` and `reachable` are failure oracles.
  - `loaded` is the media control's state after `Load`.
- Python floats are Dafny `real`s, taken as exact. Track positions and
  offsets are integer milliseconds.
- Python 2 integer `/`, `//` and `%` with a positive divisor agree with
  Dafny's Euclidean operators.

Behaviours of the code that are easy to miss, all of which the model keeps:

- Choosing a new file keeps `synced` and `offset` as they were unless the
  store has an offset for the new pair (`SyncFrame.NewRiffKeepsSync`).
  Nothing resets the frame to unsynced with offset 0.
- `OnToggleSync` measures the drift whenever both `Tell` calls succeed. It
  does not check that the tracks are playing, and gives 0 when a `Tell`
  raises.
- `SetOffset` accepts any offset, negative ones included. Nothing rejects
  an out-of-range value.
- Seeking the riff slider never moves the video. Only the video slider is
  coupled (`OnVideoSliderUpdate`).
- `riffplayer.py:342` constructs the base class `db_lib.RiffDatabase`. That
  class has no `_get_offset`/`_add_offset` and takes no constructor
  argument. The frame is bound to `LocalRiffDatabase(db_file)` instead
  (`SyncFrame.SetDbFile`).
- `db_lib.py:138,143,152` name the SQL class attributes without `self.`.
  The model keeps this as-written behaviour (see Findings). The rest of the
  model uses the intended SQL meaning.

## Model

| member | source | states |
|---|---|---|
| ContentHash.Sample | db_lib.py:40-52 | the bytes hashed are a prefix of the file content as read in binary (POSIX) mode, of length min(size, 25 MiB) |
| ContentHash.CalculateHash | db_lib.py:49-55 | succeeds exactly for a readable path; a non-string name raises OperationError(TypeError), an unreadable path OperationError(IOError) |
| ContentHash.SamePrefixSameHash | db_lib.py:49-55 | two files whose first 25 MiB agree get the same identity |
| ContentHash.TailIsIgnored | db_lib.py:40-55 | appending bytes after the first 25 MiB never changes the identity |
| ContentHash.HashIsDeterministic | db_lib.py:49-55 | re-hashing an unmodified file gives the same identity, whatever happens to other files |
| OffsetDb.InitDb | db_lib.py:149-156 | a created store is empty and at the given path; a SQLite failure becomes OperationError(SqliteError) |
| OffsetDb.OpenDb | db_lib.py:158-166 | a missing path or overwrite gives an empty table; an existing path without overwrite keeps exactly its contents; SQLite failure becomes OperationError |
| OffsetDb.LocalAdd | db_lib.py:117-124 | after INSERT OR REPLACE on the unique (video, audio) index the pair maps to the new offset, the key set grows by that pair only, all other rows are kept (`Upserted`) |
| OffsetDb.LocalGet | db_lib.py:126-130 | returns a value exactly when a row exists for the pair, and then that row's offset |
| OffsetDb.LocalRoundTrip | db_lib.py:121-130 | after adding x for (v, a), reading (v, a) gives x |
| OffsetDb.LocalUpsert | db_lib.py:117-124 | a second add for the same pair replaces the first: the table equals a single add of the second value |
| OffsetDb.LocalAddIsolated | db_lib.py:121-124 | adding for one pair leaves every other pair's lookup unchanged |
| OffsetDb.FreshStoreIsEmpty | db_lib.py:108-119 | after creating a store, every pair reads None and no error |
| OffsetDb.ReopenKeepsOffsets | db_lib.py:158-166 | re-opening an existing store without overwrite gives back the same store |
| OffsetDb.LocalAddAsWritten | db_lib.py:136-139 | as written, `_add_offset` raises NameError for `_ADD_OFFSET_SQL` |
| OffsetDb.LocalGetAsWritten | db_lib.py:141-147 | as written, `_get_offset` raises NameError for `_GET_OFFSET_SQL` |
| OffsetDb.InitDbAsWritten | db_lib.py:149-156 | as written, a failing `connect` still becomes OperationError(SqliteError); once connected, `_init_db` raises NameError for `_INIT_SQL`, which the OperationalError handler does not catch |
| OffsetDb.AsWrittenRoundTripFails | db_lib.py:136-156 | as written no add, read or store creation succeeds, while the corrected definitions succeed; a failing connect raises the same OperationError in both |
| OffsetDb.RemoteAdd | db_lib.py:80-87 | a reachable service upserts the offset for the pair, keeping every other pair and adding no other key; an unreachable one raises OperationError(UrlError) |
| OffsetDb.RemoteGet | db_lib.py:89-102 | a reachable service answers the stored offset or None; an unreachable one raises OperationError |
| OffsetDb.HashPair | db_lib.py:61-71 | the key is (hash(video), hash(audio)) in that order, and fails exactly when a file is unreadable |
| OffsetDb.AddOffset | db_lib.py:61-66 | succeeds exactly when both files hash and the backend is local or reachable; then the backend keeps its kind and path or URL, and its table is upserted at (hash(video), hash(audio)) with every other row kept |
| OffsetDb.GetOffset | db_lib.py:68-71 | succeeds exactly when both files hash and the backend is local or reachable; then it answers Some exactly when the backend's table has a row for (hash(video), hash(audio)), and that row's offset |
| OffsetDb.FrontEndRoundTrip | db_lib.py:61-71 | through either backend, a successful add for two files is read back as that offset |
| OffsetDb.SwappedFilesAreAnotherKey | db_lib.py:61-71 | when the files hash differently, adding for (video, audio) leaves the (audio, video) lookup unchanged |
| OffsetDb.LookupFollowsContent | db_lib.py:49-71 | a renamed copy of the video finds the same offset |
| OffsetDb.GetRiffDatabase | db_lib.py:169-177 | force_local gives the local store at riffdb.sqlite; otherwise a reachable probe gives the remote store at the default URL, and a URLError falls back to local; the local store holds the on-disk table, or an empty one when the file does not exist |
| OffsetDb.LocalFallbackAnswersFromDisk | db_lib.py:169-177 | force_local is the same as a failed probe, and the store it gives answers every lookup from the table already in riffdb.sqlite |
| OffsetDb.ReachableServiceIsUsed | db_lib.py:169-177 | with a reachable probe every lookup is answered from the service's table, whatever is on disk |
| Clock.Pad2 | riffplayer.py:493 | `%.2d` of a non-negative number is at least two digits, exactly two below 100 |
| Clock.Field | riffplayer.py:493 | `%.2d` of a negative number is a minus sign and at least two digits; of a non-negative one, at least two digits (read back exactly by ParseFieldOfField) |
| Clock.Fields | riffplayer.py:492-493 | minutes and seconds lie in [0, 59], and hours·3600 + minutes·60 + seconds equals ts/1000 floored; hours are non-negative for ts ≥ 0 |
| Clock.FormatTimestamp | riffplayer.py:483-493 | the text ends in `:MM:SS` with colons at fixed positions from the end |
| Clock.FormatTimestampRoundTrip | riffplayer.py:483-493 | parsing the printed HH:MM:SS gives back exactly the three printed fields, for every ts |
| Clock.ParsedTimestampIsWholeSeconds | riffplayer.py:483-493 | the fields read back from the printed text recompose to ts/1000, for every ts, negative ones included |
| SyncFrame.NewFrame | riffplayer.py:64-69 | a new frame has no files or store, is unsynced, and has offset 0 |
| SyncFrame.CorrectionTarget | riffplayer.py:386 | the target min(riffLen, max(videoPos + offset, 0)) is exact when in range, saturates to riffLen when riffLen is negative or below videoPos + offset, and to 0 when videoPos + offset is negative and riffLen is not |
| SyncFrame.ApplyOffset | riffplayer.py:378-392 | only the riff position can change; unsynced, a missing file or an unready track changes nothing; drift ≤ 100 ms changes nothing; larger drift seeks to the target |
| SyncFrame.ApplyOffsetSettles | riffplayer.py:386-390 | when the corrector runs, the riff ends within 100 ms of the target |
| SyncFrame.ApplyOffsetIdempotent | riffplayer.py:378-392 | a correction right after a correction does nothing |
| SyncFrame.SetOffset | riffplayer.py:348-352 | sets the offset and sync on; files, store and video unchanged; the riff either stays or is seeked exactly to the target, stays when it is already within 100 ms, and ends within 100 ms of the target when the corrector runs |
| SyncFrame.CalculateOffset | riffplayer.py:354-367 | video position + offset = riff position when both Tell calls succeed, else 0 |
| SyncFrame.OnToggleSync | riffplayer.py:402-413 | negates synced; disabling changes nothing else; enabling is SetOffset of the measured drift and changes nothing but the riff position |
| SyncFrame.EnablingSyncDoesNotJump | riffplayer.py:402-407 | enabling sync with both tracks ready and the riff inside its length leaves the riff where it is, with offset riff − video |
| SyncFrame.DisablingKeepsOffset | riffplayer.py:402-413 | disabling keeps the offset; re-enabling re-measures it |
| SyncFrame.LoadOffset | riffplayer.py:369-375 | no-op unless video, riff and store are chosen; raises exactly when then the store is missing or a file unreadable; a stored value v (`Stored`) gives SetOffset(v); no stored value changes nothing |
| SyncFrame.OnSaveOffset | riffplayer.py:394-400 | shows "Unable to save offset" exactly when a file or the store is unchosen; otherwise upserts the current offset under (hash(video), hash(riff)) keeping every other row; nothing but the store changes |
| SyncFrame.SaveThenLoad | riffplayer.py:369-400 | loading after saving, on any frame with the same files, syncs on the saved offset |
| SyncFrame.SetDbFile | riffplayer.py:339-346 | records the store name; an open failure shows a dialog and keeps the previous store; the video is untouched; the riff stays or is seeked exactly to the target, only when the corrector runs, ending within 100 ms of it; an offset stored in the store now open for the chosen files is adopted, synced; otherwise synced and offset are kept |
| SyncFrame.OnChooseDb | riffplayer.py:331-337 | rewinds and keeps both file names; a cancelled dialog changes nothing else; otherwise it is SetDbFile on the stopped frame: the chosen file is opened (with its table, or empty) unless opening fails, in which case a dialog shows and the previous store stays |
| SyncFrame.Stop | riffplayer.py:261-266 | both tracks rewind to 0 and nothing else changes |
| SyncFrame.OnChooseRiff | riffplayer.py:311-319 | records the chosen riff, rewinds the video, keeps the store and its file name; the riff is the loaded control, or that control seeked exactly to the target when the corrector runs, then within 100 ms of it; an offset stored for the new pair is adopted, synced; otherwise synced and offset are kept |
| SyncFrame.OnChooseVideo | riffplayer.py:321-329 | records the chosen video and its control, keeps the store and its file name; the riff is the stopped riff, or that riff seeked exactly to the target when the corrector runs, then within 100 ms of it; an offset stored for the new pair is adopted, synced; otherwise synced and offset are kept |
| SyncFrame.NewRiffKeepsSync | riffplayer.py:311-319 | with no stored offset for the new pair, choosing a riff keeps synced and offset as they were |
| SyncFrame.ChoosingBackRestoresOffset | riffplayer.py:311-319 | after a save, choosing another riff and then the saved one again restores the saved offset, synced |
| SyncFrame.ReopenedStoreRestoresOffset | riffplayer.py:339-346 | opening a store file holding a saved table makes a frame with the same files adopt the saved offset, synced |
| SyncFrame.OnVideoSliderUpdate | riffplayer.py:293-299 | seeks the video; only the two positions can change; the riff moves only when engaged, and then exactly to the target for the new position, ending within 100 ms of it; an unready video changes nothing |
| SyncFrame.OnRiffSliderUpdate | riffplayer.py:285-291 | seeks the riff alone; an unready riff changes nothing |
| SyncFrame.FirstSessionStoresDrift | riffplayer.py:285-413 | opening a new store, choosing both files, seeking to videoAt and riffAt, enabling sync and saving stores riffAt − videoAt for the pair |
| SyncFrame.OffsetLifecycle | riffplayer.py:285-413 | through the handlers only: open a new store, choose both files, seek to 5000/7500 ms, enable sync, save; a later session opening that table and choosing the same files is synced on 2500 |
| GuiLib.HitTest | gui_lib.py:47-49 | a hit means the point lies strictly inside both open intervals, and a miss means it lies outside one of them |
| GuiLib.EdgePointsMiss | gui_lib.py:47-49 | points on the border, corners included, miss |
| GuiLib.HitTestMovesWithControl | gui_lib.py:47-49 | translating control and point together preserves hit or miss |
| GuiLib.SetPos | gui_lib.py:57-59 | a falsy argument (None or 0) keeps the old coordinate, any other replaces it; the size is kept |
| GuiLib.SetPosCannotReachZero | gui_lib.py:57-59 | set_pos(0, 0) leaves a control that is off the origin where it was |
| GuiLib.SetPosReachesNonZero | gui_lib.py:57-59 | non-zero coordinates are reached exactly, and repeating the call is a no-op |
| GuiLib.PlaceNew | gui_lib.py:57-59 | the first set_pos on a never-placed control raises AttributeError for x exactly when x is falsy, for y when only y is falsy, and otherwise places it at (x, y) |
| GuiLib.PlacedControlKeepsPosition | gui_lib.py:57-59 | once placed at non-zero (x, y), placing again there or with falsy arguments changes nothing |
| GuiLib.TextButtonSetPos | gui_lib.py:91-95 | the button moves as Control.set_pos does and the label ends at the button's x, y |
| GuiLib.TextButtonPlaceNew | gui_lib.py:91-95 | the first TextButton.set_pos on a never-placed button raises as PlaceNew does, and otherwise puts the button and its label at (x, y) |
| GuiLib.TextButtonRelease | gui_lib.py:97-100 | handlers are released first; a hit then dispatches on_press and a miss dispatches nothing more |
| GuiLib.ImageButtonRelease | gui_lib.py:129-133 | on a hit active flips and release then on_press are dispatched; otherwise the button is unchanged and only release happens |
| GuiLib.ImageButtonTwiceRestores | gui_lib.py:129-133 | two hitting releases restore the button |
| GuiLib.Clamp | gui_lib.py:175 | min(max(v, lo), hi) is v when it lies in [lo, hi], hi when v or lo is above hi, and lo when v < lo ≤ hi |
| GuiLib.CoordinateToValue | gui_lib.py:153-154 | the left edge maps to min, the right edge to max; zero width raises |
| GuiLib.ValueToCoordinate | gui_lib.py:156-157 | the coordinate is ≥ 0 and ≤ max when max ≥ 0 (clamped by the value bound, not the pixel extent); max = min raises |
| GuiLib.LinearMapsInverse | gui_lib.py:153-157 | the unclamped inverse formula undoes coordinate_to_value |
| GuiLib.CoordinateRoundTrip | gui_lib.py:153-157 | value_to_coordinate(coordinate_to_value(x)) = max(0, min(x, max)), so x comes back only when 0 ≤ x ≤ max |
| GuiLib.NewSlider | gui_lib.py:140-151 | a new slider is at the origin with value min_val |
| GuiLib.SliderPress | gui_lib.py:168-172 | capture, then on_begin_scroll, then on_change with the pointer's value; zero width raises before any of them |
| GuiLib.SliderDrag | gui_lib.py:174-176 | one on_change whose value is the pointer's value when in [min, max], max when above, min when below (min ≤ max); zero width raises |
| GuiLib.SliderRelease | gui_lib.py:178-182 | release, then the unclamped on_change, then on_end_scroll |
| GuiLib.GestureIsBracketed | gui_lib.py:168-182 | in press–drag–release every on_change lies between on_begin_scroll and on_end_scroll |
| EarlyPlayer.SetPos | riff_player.py:33-35 | both coordinates are assigned as given, zero included |
| EarlyPlayer.SetPosReachesOrigin | riff_player.py:33-35 | this set_pos can move a control to 0, which gui_lib's cannot |
| EarlyPlayer.EdgeMisses | riff_player.py:23-25 | points on the left or right edge miss |
| EarlyPlayer.ValueToCoordinate | riff_player.py:93-94 | min maps to the left edge and max to the right edge, with no clamp; max = min raises |
| EarlyPlayer.CoordinateRoundTrip | riff_player.py:90-94 | value_to_coordinate(coordinate_to_value(x)) = x when width ≠ 0 and max ≠ min |
| EarlyPlayer.ValueRoundTrip | riff_player.py:90-94 | coordinate_to_value(value_to_coordinate(v)) = v under the same conditions |
| EarlyPlayer.SliderPress | riff_player.py:102-106 | stores coordinate_to_value of the pointer, then capture, on_begin_scroll, on_change with that value; zero width raises |
| EarlyPlayer.SliderDrag | riff_player.py:108-109 | stores the pointer's value when in [min, max], max when above, min when below (min ≤ max); dispatches nothing |
| EarlyPlayer.SliderRelease | riff_player.py:111-113 | releases and ends the scroll; the value is kept |
| EarlyPlayer.DragThenReleaseKeepsClamped | riff_player.py:102-113 | after press, drag and release the slider holds the drag's clamped value, the value gui_lib's drag dispatches, and the release dispatches no on_change |
| EarlyPlayer.NewRiffPlayer | riff_player.py:125-131 | a new player is unsynced |
| EarlyPlayer.Seek | riff_player.py:166-170 | player ends at value; when synced the partner keeps its time difference; otherwise the partner is unchanged |
| EarlyPlayer.OnVideoSliderChange | riff_player.py:151-153 | the video slider seeks the video with the audio as partner; playing flags are kept |
| EarlyPlayer.SyncedSeeksKeepDifference | riff_player.py:166-170 | any sequence of synced seeks preserves audio time − video time |
| EarlyPlayer.PauseAll | riff_player.py:158-160 | both players stop playing, times kept |
| EarlyPlayer.PlayAll | riff_player.py:162-164 | both players play, times kept |
| EarlyPlayer.TogglePlaybackAll | riff_player.py:172-176 | if either plays both are paused, otherwise both play |
| EarlyPlayer.TogglePlaybackTwice | riff_player.py:172-176 | after a toggle the players agree, and from agreement two toggles restore the state |
| EarlyPlayer.ToggleSynced | riff_player.py:178-179 | negates synced and changes nothing else |
| EarlyPlayer.ToggleSyncedInvolution | riff_player.py:178-179 | toggling twice restores the original |
| EarlyPlayer.SyncButtonRelease | riff_player.py:140-143 | synced and the button's active flag each flip exactly on a hit, the button keeps its control, and a button whose flag showed synced still does |
| EarlyPlayer.PlayButtonRelease | riff_player.py:136-139 | a hit runs toggle_playback_all and flips the button; a miss changes nothing |
| EarlyPlayer.VideoSliderGesture | riff_player.py:146-153 | press then release leaves both playing, the video at the pointer's value, and the synced time difference kept |

## Left out

- UI plumbing is not modelled: widget construction, sizers, bitmaps, menus, dialogs, fullscreen and drawing. This covers `riffplayer.py` 76-243 and 445-480, `riff_player.py` 181-219 and `draw`, and `gui_lib.py` 34-39 and the `draw` methods. The falsy `self.value` fallback in `riff_player.py`'s `Slider.draw` is part of this.
- `OnIdle`'s wall-clock gate (`int(time.time()) % 10`) is not modelled. `ApplyOffset` is the tick, called explicitly.
- `Play`, `Pause` and `OnPlayPause` are not modelled: they set slider maxima and play state, which the sync logic never reads. `OnUpdateUI` is only display. `OnShowHash` is not modelled either: it calls `calculate_hash` on the store object, which has no such method.
- `OnEnterOffset`'s number dialog is not modelled. The number it yields goes through `SetOffset`, which is modelled.
- Volume sliders and `get_video_size` are float scaling over foreign format objects.
- Media decoding and playback are not modelled. A media control is its position, length and readiness.
- `SyncFrame.Stop` takes wx `MediaCtrl.Stop` to rewind to 0.
- `SyncFrame.OnChooseRiff` and `SyncFrame.OnChooseVideo` take the control's state after `Load` as the parameter `loaded`. This also covers `Load(None)` after a cancelled dialog, whose wx behaviour is foreign.
- ContentHash.Sample: `open(filename)` is text mode. On Windows, Python 2 text mode turns CRLF into LF and stops reading at a 0x1A byte, so the hashed bytes there are not a prefix of the file. The model hashes the bytes as read on POSIX systems, where text and binary mode agree.
- ContentHash.CalculateHash: MD5 and file reading are foreign, so the digest is an arbitrary function of the sampled bytes. That files with different prefixes get different hashes is a property of MD5 and is not proved.
- GuiLib.PlaceNew: when x is truthy and y is falsy, Python has already assigned `self.x` before the AttributeError; the model returns only the error, not the half-placed control.
- OffsetDb.LocalAdd: SQLite errors raised by `execute`/`commit` on an already open store are not modelled. The source does not convert them to OperationError. Existing files are assumed to hold a valid `Offsets` table.
- OffsetDb.RemoteGet: the HTTP transport, URL encoding and `float(response)` parsing are foreign. One reachability oracle stands for every transport failure, and the service is modelled by the table it keeps.
- OffsetDb.GetRiffDatabase: a probe exception other than URLError would propagate. Only reachable or URLError is modelled.
- Offset values are typed generically in the store. The frame stores integer milliseconds: every offset the frame writes is an integer (a `Tell` difference or the integer number dialog), and the REAL column gives such a value back unchanged. Non-integral offsets are not modelled, whether they come from a remote service or from a local store file written by another program.
- Python floats are modelled as exact reals, so rounding in the slider maps is not modelled.
- Concurrency: the program is single-threaded, and so is the model.
- `setup.py` is packaging only.

## Findings

| source | as written | input that shows it | evidently intended | confidence | as-written member | corrected member |
|---|---|---|---|---|---|---|
| db_lib.py:136-156 | `_add_offset`, `_get_offset` and `_init_db` name `_ADD_OFFSET_SQL`, `_GET_OFFSET_SQL` and `_INIT_SQL` without `self.`. These are class attributes, so each call raises NameError. In `_init_db` the NameError also escapes the `sqlite3.OperationalError` handler. | adding offset 2500 for any hash pair; reading any pair; opening a path that does not exist | `self._ADD_OFFSET_SQL` etc.: upsert, lookup and table creation | high (not executed) | OffsetDb.AsWrittenRoundTripFails | OffsetDb.LocalRoundTrip |

=== FILE: clock.dfy ===
/**
 * `RiffPlayerFrame._FormatTimestamp` (riffplayer.py): a millisecond position
 * shown as HH:MM:SS with Python 2 integer division and the `%.2d` format.
 * A parser for the same text is the partner that proves the format loses
 * nothing but the sub-second part.
 */
module Clock {
  import opened Wrappers

  predicate IsDigit(c: char) {
    '0' <= c <= '9'
  }

  predicate AllDigits(s: string) {
    forall i :: 0 <= i < |s| ==> IsDigit(s[i])
  }

  function DigitChar(d: nat): (c: char)
    requires d < 10
    ensures IsDigit(c)
  {
    (('0' as int) + d) as char
  }

  function DigitValue(c: char): (d: nat)
    requires IsDigit(c)
    ensures d < 10 && DigitChar(d) == c
  {
    (c as int) - ('0' as int)
  }

  /** Decimal digits of `n`, most significant first, without leading zeros. */
  function Digits(n: nat): (s: string)
    ensures |s| >= 1 && AllDigits(s)
    ensures n < 10 <==> |s| == 1
    ensures 10 <= n < 100 ==> |s| == 2
    decreases n
  {
    if n < 10 then [DigitChar(n)] else Digits(n / 10) + [DigitChar(n % 10)]
  }

  /** The value of a non-empty digit string. */
  function ParseDigits(s: string): nat
    requires |s| >= 1 && AllDigits(s)
    decreases |s|
  {
    if |s| == 1 then DigitValue(s[0])
    else ParseDigits(s[..|s| - 1]) * 10 + DigitValue(s[|s| - 1])
  }

  /** `'%.2d' % n` for n >= 0: at least two digits, zero-padded. */
  function Pad2(n: nat): (s: string)
    ensures |s| >= 2 && AllDigits(s)
    ensures n < 100 ==> |s| == 2
  {
    if n < 10 then [DigitChar(0), DigitChar(n)] else Digits(n)
  }

  /** `'%.2d' % n` for any int: a minus sign, then the padded magnitude. */
  function Field(n: int): (s: string)
    ensures n < 0 ==> |s| >= 3 && s[0] == '-' && AllDigits(s[1..])
    ensures n >= 0 ==> |s| >= 2 && AllDigits(s)
  {
    if n < 0 then "-" + Pad2(-n) else Pad2(n)
  }

  /** The three numbers `_FormatTimestamp` prints, from `secs = ts/1000`. */
  function Fields(ts: int): (hms: (int, int, int))
    ensures 0 <= hms.1 < 60 && 0 <= hms.2 < 60
    ensures hms.0 * 3600 + hms.1 * 60 + hms.2 == ts / 1000
    ensures ts >= 0 ==> hms.0 >= 0
  {
    // Python 2 `/` and `//` on ints floor; for a positive divisor that is
    // exactly Dafny's Euclidean division, and `%` agrees likewise.
    var secs := ts / 1000;
    FieldsRecompose(secs);
    (secs / 3600, (secs % 3600) / 60, secs % 60)
  }

  lemma FieldsRecompose(secs: int)
    ensures (secs / 3600) * 3600 + ((secs % 3600) / 60) * 60 + secs % 60 == secs
  {
    var h, r := secs / 3600, secs % 3600;
    assert secs == h * 3600 + r;
    var m, s := r / 60, r % 60;
    assert r == m * 60 + s;
    assert secs == (h * 60 + m) * 60 + s;
    assert secs % 60 == s;
  }

  /** `_FormatTimestamp(ts)`. */
  function FormatTimestamp(ts: int): (out: string)
    ensures |out| >= 8 && out[|out| - 3] == ':' && out[|out| - 6] == ':'
  {
    var hms := Fields(ts);
    Field(hms.0) + ":" + Pad2(hms.1) + ":" + Pad2(hms.2)
  }

  /** Reads back what `Field` prints: an optional minus sign and digits. */
  function ParseField(text: string): Option<int> {
    if |text| >= 2 && text[0] == '-' && AllDigits(text[1..]) then Some(-(ParseDigits(text[1..]) as int))
    else if |text| >= 1 && AllDigits(text) then Some(ParseDigits(text))
    else None
  }

  /** Two digits read back as a number below 100. */
  lemma TwoDigitsBelow100(s: string)
    requires |s| == 2 && AllDigits(s)
    ensures ParseDigits(s) < 100
  {
    assert ParseDigits(s) == ParseDigits(s[..1]) * 10 + DigitValue(s[1]);
  }

  /** Reads back an `[-]H+:MM:SS` text as its hours, minutes and seconds. */
  function ParseTimestamp(text: string): (r: Option<(int, int, int)>)
    ensures r.Some? ==> |text| >= 8 && text[|text| - 3] == ':' && text[|text| - 6] == ':'
    ensures r.Some? ==> 0 <= r.value.1 < 100 && 0 <= r.value.2 < 100
  {
    if |text| < 8 || text[|text| - 3] != ':' || text[|text| - 6] != ':' then None
    else
      var hours, minutes, seconds := text[..|text| - 6], text[|text| - 5..|text| - 3], text[|text| - 2..];
      if !AllDigits(minutes) || !AllDigits(seconds) then None
      else
        match ParseField(hours)
        case None => None
        case Some(h) =>
          TwoDigitsBelow100(minutes);
          TwoDigitsBelow100(seconds);
          Some((h, ParseDigits(minutes), ParseDigits(seconds)))
  }

  lemma {:induction false} ParseDigitsOfDigits(n: nat)
    ensures ParseDigits(Digits(n)) == n
    decreases n
  {
    if n >= 10 {
      var s := Digits(n);
      assert s[..|s| - 1] == Digits(n / 10);
      ParseDigitsOfDigits(n / 10);
    }
  }

  lemma ParseDigitsOfPad2(n: nat)
    ensures ParseDigits(Pad2(n)) == n
  {
    if n < 10 {
      assert Pad2(n)[..1] == [DigitChar(0)];
    } else {
      ParseDigitsOfDigits(n);
    }
  }

  lemma ParseFieldOfField(n: int)
    ensures ParseField(Field(n)) == Some(n)
  {
    if n < 0 {
      ParseFieldOfNegative(n);
    } else {
      var text := Pad2(n);
      assert IsDigit(text[0]);
      ParseDigitsOfPad2(n);
      assert ParseField(text) == Some(ParseDigits(text));
    }
  }

  lemma ParseFieldOfNegative(n: int)
    requires n < 0
    ensures ParseField(Field(n)) == Some(n)
  {
    var m: nat := -n;
    var digits := Pad2(m);
    assert Field(n) == "-" + digits;
    ParseSigned(digits);
    ParseDigitsOfPad2(m);
  }

  /** A minus sign before a digit string reads back as the negated digits. */
  lemma ParseSigned(digits: string)
    requires |digits| >= 1 && AllDigits(digits)
    ensures ParseField("-" + digits) == Some(-(ParseDigits(digits) as int))
  {
    var text := "-" + digits;
    assert text[1..] == digits;
  }

  /** The three parts of a printed timestamp are recovered from their positions. */
  lemma PartsAreRecovered(hs: string, ms: string, ss: string)
    requires |hs| >= 2 && |ms| == 2 && |ss| == 2
    ensures var text := hs + ":" + ms + ":" + ss;
            && |text| >= 8 && text[|text| - 3] == ':' && text[|text| - 6] == ':'
            && text[..|text| - 6] == hs && text[|text| - 5..|text| - 3] == ms && text[|text| - 2..] == ss
  {
  }

  lemma ParseOfParts(h: int, m: nat, sec: nat)
    requires m < 60 && sec < 60
    ensures ParseTimestamp(Field(h) + ":" + Pad2(m) + ":" + Pad2(sec)) == Some((h, m, sec))
  {
    PartsAreRecovered(Field(h), Pad2(m), Pad2(sec));
    ParseFieldOfField(h);
    ParseDigitsOfPad2(m);
    ParseDigitsOfPad2(sec);
  }

  /**
   * The printed text determines the whole seconds of the timestamp: parsing
   * it gives back the three printed fields, for every `ts`.
   */
  lemma FormatTimestampRoundTrip(ts: int)
    ensures ParseTimestamp(FormatTimestamp(ts)) == Some(Fields(ts))
  {
    var hms := Fields(ts);
    ParseOfParts(hms.0, hms.1, hms.2);
  }

  /** The fields read back from the printed text recompose to `ts/1000`, negative `ts` included. */
  lemma ParsedTimestampIsWholeSeconds(ts: int)
    ensures ParseTimestamp(FormatTimestamp(ts)).Some?
    ensures var hms := ParseTimestamp(FormatTimestamp(ts)).value;
            hms.0 * 3600 + hms.1 * 60 + hms.2 == ts / 1000
  {
    FormatTimestampRoundTrip(ts);
  }
}

=== FILE: content_hash.dfy ===
/**
 * Content identity of a media file (db_lib.py `calculate_hash`): an MD5 hex
 * digest of the first HASH_SAMPLE_SIZE bytes of the file. MD5 itself and the
 * file system are not modelled; they are parameters.
 */
module ContentHash {
  import opened Wrappers

  newtype byte = x: int | 0 <= x < 256

  /** Number of leading bytes that are hashed (25 MiB). */
  const HASH_SAMPLE_SIZE: nat := 26214400

  predicate IsHexChar(c: char) {
    '0' <= c <= '9' || 'a' <= c <= 'f'
  }

  /** What `hexdigest()` of an MD5 object yields: 32 lower-case hex digits. */
  type HexDigest = s: string | |s| == 32 && forall i :: 0 <= i < |s| ==> IsHexChar(s[i])
    witness "00000000000000000000000000000000"

  /** The digest algorithm, left uninterpreted: any function of the sampled bytes. */
  type Digest = seq<byte> -> HexDigest

  /** The readable files: a path that is absent cannot be opened. */
  type FileSystem = map<string, seq<byte>>

  /** The library's own exception `OperationError` and what it wraps. */
  datatype Cause = IOError | TypeError | SqliteError | UrlError
  datatype OperationError = OperationError(cause: Cause)

  /** `open(filename).read(HASH_SAMPLE_SIZE)`: at most that many leading bytes. */
  function Sample(content: seq<byte>): (s: seq<byte>)
    ensures s <= content
    ensures |s| == if |content| < HASH_SAMPLE_SIZE then |content| else HASH_SAMPLE_SIZE
  {
    if |content| < HASH_SAMPLE_SIZE then content else content[..HASH_SAMPLE_SIZE]
  }

  /**
   * `calculate_hash(filename)`. `None` stands for a non-string argument
   * (`open(None)` raises TypeError); a path missing from `fs` raises IOError.
   * Both are re-raised as OperationError; otherwise a full digest is returned.
   */
  function CalculateHash(fs: FileSystem, md5: Digest, filename: Option<string>)
    : (r: Result<HexDigest, OperationError>)
    ensures r.Success? <==> filename.Some? && filename.value in fs
    ensures filename.None? ==> r == Failure(OperationError(TypeError))
    ensures filename.Some? && filename.value !in fs ==> r == Failure(OperationError(IOError))
  {
    match filename
    case None => Failure(OperationError(TypeError))
    case Some(path) =>
      if path in fs then Success(md5(Sample(fs[path])))
      else Failure(OperationError(IOError))
  }

  /** Two readable files whose sampled prefixes agree get the same identity. */
  lemma SamePrefixSameHash(fs: FileSystem, md5: Digest, a: string, b: string)
    requires a in fs && b in fs
    requires |fs[a]| >= HASH_SAMPLE_SIZE && |fs[b]| >= HASH_SAMPLE_SIZE
    requires fs[a][..HASH_SAMPLE_SIZE] == fs[b][..HASH_SAMPLE_SIZE]
    ensures CalculateHash(fs, md5, Some(a)) == CalculateHash(fs, md5, Some(b))
    ensures CalculateHash(fs, md5, Some(a)).Success?
  {
    assert Sample(fs[a]) == Sample(fs[b]);
  }

  /** Bytes past the sample never influence the identity. */
  lemma TailIsIgnored(fs: FileSystem, md5: Digest, path: string, tail: seq<byte>)
    requires path in fs && |fs[path]| >= HASH_SAMPLE_SIZE
    ensures CalculateHash(fs[path := fs[path] + tail], md5, Some(path))
         == CalculateHash(fs, md5, Some(path))
  {
    var c := fs[path];
    assert (c + tail)[..HASH_SAMPLE_SIZE] == c[..HASH_SAMPLE_SIZE];
    assert Sample(c + tail) == Sample(c);
  }

  /** Re-hashing an unmodified file yields the same identity. */
  lemma HashIsDeterministic(fs: FileSystem, md5: Digest, path: string, other: string, bytes: seq<byte>)
    requires path in fs && other != path
    ensures CalculateHash(fs[other := bytes], md5, Some(path)) == CalculateHash(fs, md5, Some(path))
  {
  }
}

=== FILE: early_player.dfy ===
/**
 * The earlier single-window player, riff_player.py: two pyglet players whose
 * seeks are coupled while synced, a play and a sync button, and a slider
 * that stores its own value. Its `Control.hit_test` and
 * `ImageButton.on_mouse_release` are the same code as gui_lib.py's and are
 * reused from GuiLib; its `set_pos`, `value_to_coordinate` and slider event
 * handlers differ and are defined here.
 */
module EarlyPlayer {
  import opened Wrappers
  import GuiLib

  // --------------------------------------------------------------- widgets

  /** riff_player's `Control.set_pos(x, y)`: plain assignment, zero included. */
  function SetPos(c: GuiLib.Control, x: real, y: real): (r: GuiLib.Control)
    ensures r.x == x && r.y == y && r.width == c.width && r.height == c.height
  {
    c.(x := x, y := y)
  }

  /** Unlike gui_lib's falsy fallback, this `set_pos` can return a control to the origin. */
  lemma SetPosReachesOrigin(c: GuiLib.Control)
    requires c.x != 0.0
    ensures SetPos(c, 0.0, 0.0).x == 0.0
    ensures GuiLib.SetPos(c, Some(0.0), Some(0.0)).x == c.x
  {
  }

  /** The hit test here is gui_lib's: an edge point misses. */
  lemma EdgeMisses(c: GuiLib.Control, py: real)
    ensures !GuiLib.HitTest(c, c.x, py) && !GuiLib.HitTest(c, c.x + c.width, py)
  {
    GuiLib.EdgePointsMiss(c, c.x, py);
    GuiLib.EdgePointsMiss(c, c.x + c.width, py);
  }

  /** riff_player's `Slider`: its scale and a value that starts as None. */
  datatype Slider = Slider(scale: GuiLib.Scale, value: Option<real>)

  /** riff_player's `value_to_coordinate`: the inverse map, without any clamp. */
  function ValueToCoordinate(s: GuiLib.Scale, v: real): (r: Option<real>)
    ensures r.None? <==> s.max == s.min
    ensures r.Some? && v == s.min ==> r.value == s.ctrl.x
    ensures r.Some? && v == s.max ==> r.value == s.ctrl.x + s.ctrl.width
  {
    if s.max == s.min then None
    else Some((v - s.min) / (s.max - s.min) * s.ctrl.width + s.ctrl.x)
  }

  /** Pixel to value and back is the identity when both divisions are defined. */
  lemma CoordinateRoundTrip(s: GuiLib.Scale, px: real)
    requires s.ctrl.width != 0.0 && s.max != s.min
    ensures ValueToCoordinate(s, GuiLib.CoordinateToValue(s, px).value).Some?
    ensures ValueToCoordinate(s, GuiLib.CoordinateToValue(s, px).value).value == px
  {
    var d := s.max - s.min;
    var v := GuiLib.CoordinateToValue(s, px).value;
    GuiLib.LinearMapsInverse(s, px);
    assert ValueToCoordinate(s, v).value == (v - s.min) / d * s.ctrl.width + s.ctrl.x;
  }

  /** Value to pixel and back is the identity as well. */
  lemma ValueRoundTrip(s: GuiLib.Scale, v: real)
    requires s.ctrl.width != 0.0 && s.max != s.min
    ensures GuiLib.CoordinateToValue(s, ValueToCoordinate(s, v).value).Some?
    ensures GuiLib.CoordinateToValue(s, ValueToCoordinate(s, v).value).value == v
  {
    var d := s.max - s.min;
    var a := (v - s.min) / d;
    var c := ValueToCoordinate(s, v).value;
    assert c == a * s.ctrl.width + s.ctrl.x;
    assert (c - s.ctrl.x) / s.ctrl.width == a;
    assert a * d == v - s.min;
    assert GuiLib.CoordinateToValue(s, c).value == (c - s.ctrl.x) / s.ctrl.width * d + s.min;
  }

  /**
   * `Slider.on_mouse_press`: store the value under the pointer, capture,
   * `on_begin_scroll`, then `on_change` with the stored value. None stands
   * for the ZeroDivisionError of a zero width.
   */
  function SliderPress(s: Slider, px: real): (r: Option<(Slider, seq<GuiLib.Event>)>)
    ensures r.None? <==> s.scale.ctrl.width == 0.0
    ensures r.Some? ==> r.value.0.scale == s.scale
    ensures r.Some? ==> r.value.0.value == GuiLib.CoordinateToValue(s.scale, px)
    ensures r.Some? ==> r.value.1 == [GuiLib.CaptureEvents, GuiLib.BeginScroll,
                                      GuiLib.Change(r.value.0.value.value)]
    ensures r.Some? && px == s.scale.ctrl.x ==> r.value.0.value == Some(s.scale.min)
  {
    match GuiLib.CoordinateToValue(s.scale, px)
    case None => None
    case Some(v) => Some((s.(value := Some(v)), [GuiLib.CaptureEvents, GuiLib.BeginScroll, GuiLib.Change(v)]))
  }

  /** `Slider.on_mouse_drag`: store the value clamped into `[min, max]`; nothing is dispatched. */
  function SliderDrag(s: Slider, px: real): (r: Option<Slider>)
    ensures r.None? <==> s.scale.ctrl.width == 0.0
    ensures r.Some? ==> r.value.scale == s.scale && r.value.value.Some?
    ensures r.Some? && s.scale.min <= s.scale.max ==>
      s.scale.min <= r.value.value.value <= s.scale.max
    ensures r.Some? && s.scale.min <= GuiLib.CoordinateToValue(s.scale, px).value <= s.scale.max ==>
      r.value.value == GuiLib.CoordinateToValue(s.scale, px)
    ensures r.Some? && s.scale.max < GuiLib.CoordinateToValue(s.scale, px).value ==>
      r.value.value == Some(s.scale.max)
    ensures r.Some? && GuiLib.CoordinateToValue(s.scale, px).value < s.scale.min <= s.scale.max ==>
      r.value.value == Some(s.scale.min)
  {
    match GuiLib.CoordinateToValue(s.scale, px)
    case None => None
    case Some(v) => Some(s.(value := Some(GuiLib.Clamp(v, s.scale.min, s.scale.max))))
  }

  /** `Slider.on_mouse_release`: release the handlers and end the scroll; the value stays. */
  function SliderRelease(s: Slider): (r: (Slider, seq<GuiLib.Event>))
    ensures r.0 == s
    ensures r.1 == [GuiLib.ReleaseEvents, GuiLib.EndScroll]
  {
    (s, [GuiLib.ReleaseEvents, GuiLib.EndScroll])
  }

  /**
   * A press-drag-release gesture leaves the slider holding the last drag's
   * value clamped into `[min, max]`, which is what gui_lib's drag dispatches;
   * the release changes nothing and dispatches no `on_change`.
   */
  lemma DragThenReleaseKeepsClamped(s: Slider, pressX: real, dragX: real)
    requires s.scale.ctrl.width != 0.0
    ensures var pressed := SliderPress(s, pressX).value.0;
            var released := SliderRelease(SliderDrag(pressed, dragX).value);
            && released.0.scale == s.scale
            && released.0.value
               == Some(GuiLib.Clamp(GuiLib.CoordinateToValue(s.scale, dragX).value, s.scale.min, s.scale.max))
            && released.0.value == Some(GuiLib.SliderDrag(GuiLib.Slider(s.scale, s.scale.min), dragX).value[0].value)
            && forall i :: 0 <= i < |released.1| ==> !released.1[i].Change?
  {
  }

  // --------------------------------------------------------------- players

  /** A pyglet `media.Player`: its time in seconds and whether it plays. */
  datatype Player = Player(time: real, playing: bool)

  datatype RiffPlayer = RiffPlayer(video: Player, audio: Player, synced: bool)

  /** `RiffPlayer.__init__`: not synced. */
  function NewRiffPlayer(video: Player, audio: Player): (rp: RiffPlayer)
    ensures !rp.synced && rp.video == video && rp.audio == audio
  {
    RiffPlayer(video, audio, false)
  }

  /**
   * `seek(player, sync_player, value)`: when synced, move the partner by the
   * same delta first; then move `player` to `value`. Returns both players.
   */
  function Seek(synced: bool, player: Player, syncPlayer: Player, value: real): (r: (Player, Player))
    ensures r.0 == player.(time := value)
    ensures synced ==> r.1.time - r.0.time == syncPlayer.time - player.time
    ensures synced ==> r.1 == syncPlayer.(time := r.1.time)
    ensures !synced ==> r.1 == syncPlayer
  {
    var partner := if synced then syncPlayer.(time := syncPlayer.time + (value - player.time)) else syncPlayer;
    (player.(time := value), partner)
  }

  /** The video slider's `on_change`: `seek(video_player, audio_player, value)`. */
  function OnVideoSliderChange(rp: RiffPlayer, value: real): (r: RiffPlayer)
    ensures r.video.time == value && r.synced == rp.synced
    ensures rp.synced ==> r.audio.time - r.video.time == rp.audio.time - rp.video.time
    ensures !rp.synced ==> r.audio == rp.audio
    ensures r.video.playing == rp.video.playing && r.audio.playing == rp.audio.playing
  {
    var moved := Seek(rp.synced, rp.video, rp.audio, value);
    rp.(video := moved.0, audio := moved.1)
  }

  /** Successive synced seeks never change the players' time difference. */
  lemma SyncedSeeksKeepDifference(rp: RiffPlayer, values: seq<real>)
    requires rp.synced
    ensures SeekAll(rp, values).audio.time - SeekAll(rp, values).video.time
         == rp.audio.time - rp.video.time
    decreases |values|
  {
    if |values| > 0 {
      SyncedSeeksKeepDifference(OnVideoSliderChange(rp, values[0]), values[1..]);
    }
  }

  /** The video slider dragged through `values`, in order. */
  function SeekAll(rp: RiffPlayer, values: seq<real>): (r: RiffPlayer)
    ensures r.synced == rp.synced
    decreases |values|
  {
    if |values| == 0 then rp else SeekAll(OnVideoSliderChange(rp, values[0]), values[1..])
  }

  function PauseAll(rp: RiffPlayer): (r: RiffPlayer)
    ensures !r.video.playing && !r.audio.playing
    ensures r.video.time == rp.video.time && r.audio.time == rp.audio.time && r.synced == rp.synced
  {
    rp.(video := rp.video.(playing := false), audio := rp.audio.(playing := false))
  }

  function PlayAll(rp: RiffPlayer): (r: RiffPlayer)
    ensures r.video.playing && r.audio.playing
    ensures r.video.time == rp.video.time && r.audio.time == rp.audio.time && r.synced == rp.synced
  {
    rp.(video := rp.video.(playing := true), audio := rp.audio.(playing := true))
  }

  /** `toggle_playback_all`: if either plays, pause both; otherwise play both. */
  function TogglePlaybackAll(rp: RiffPlayer): (r: RiffPlayer)
    ensures rp.video.playing || rp.audio.playing ==> !r.video.playing && !r.audio.playing
    ensures !rp.video.playing && !rp.audio.playing ==> r.video.playing && r.audio.playing
    ensures r.video.time == rp.video.time && r.audio.time == rp.audio.time && r.synced == rp.synced
  {
    if rp.video.playing || rp.audio.playing then PauseAll(rp) else PlayAll(rp)
  }

  /** After one toggle the players agree; from agreement, two toggles restore the state. */
  lemma TogglePlaybackTwice(rp: RiffPlayer)
    ensures TogglePlaybackAll(rp).video.playing == TogglePlaybackAll(rp).audio.playing
    ensures rp.video.playing == rp.audio.playing ==> TogglePlaybackAll(TogglePlaybackAll(rp)) == rp
  {
  }

  /** `toggle_synced`: `synced is False`, on a bool. */
  function ToggleSynced(rp: RiffPlayer): (r: RiffPlayer)
    ensures r.synced == !rp.synced
    ensures r.video == rp.video && r.audio == rp.audio
  {
    rp.(synced := !rp.synced)
  }

  lemma ToggleSyncedInvolution(rp: RiffPlayer)
    ensures ToggleSynced(ToggleSynced(rp)) == rp
  {
  }

  /**
   * A release over the sync button: the button flips its `active` flag and
   * its `on_press` handler toggles `synced`, so a button that showed the
   * sync state still shows it afterwards.
   */
  function SyncButtonRelease(rp: RiffPlayer, b: GuiLib.ImageButton, px: real, py: real)
    : (r: (RiffPlayer, GuiLib.ImageButton))
    ensures b.active == rp.synced ==> r.1.active == r.0.synced
    ensures r.0.synced != rp.synced <==> GuiLib.HitTest(b.ctrl, px, py)
    ensures r.0.video == rp.video && r.0.audio == rp.audio
    ensures r.1.ctrl == b.ctrl && (r.1.active != b.active <==> GuiLib.HitTest(b.ctrl, px, py))
  {
    var released := GuiLib.ImageButtonRelease(b, px, py);
    var rp' := if GuiLib.Press in released.1 then ToggleSynced(rp) else rp;
    (rp', released.0)
  }

  /** A release over the play button runs `toggle_playback_all` exactly when it hits. */
  function PlayButtonRelease(rp: RiffPlayer, b: GuiLib.ImageButton, px: real, py: real)
    : (r: (RiffPlayer, GuiLib.ImageButton))
    ensures GuiLib.HitTest(b.ctrl, px, py) ==> r.0 == TogglePlaybackAll(rp) && r.1.active == !b.active
    ensures !GuiLib.HitTest(b.ctrl, px, py) ==> r == (rp, b)
  {
    var released := GuiLib.ImageButtonRelease(b, px, py);
    var rp' := if GuiLib.Press in released.1 then TogglePlaybackAll(rp) else rp;
    (rp', released.0)
  }

  /**
   * The video slider's gesture: `on_begin_scroll` pauses both players,
   * `on_change` seeks, and `on_end_scroll` plays both again.
   */
  function VideoSliderGesture(rp: RiffPlayer, s: Slider, px: real): (r: Option<(RiffPlayer, Slider)>)
    ensures r.None? <==> s.scale.ctrl.width == 0.0
    ensures r.Some? ==> r.value.0.video.playing && r.value.0.audio.playing
    ensures r.Some? ==> Some(r.value.0.video.time) == GuiLib.CoordinateToValue(s.scale, px)
    ensures r.Some? && rp.synced ==>
      r.value.0.audio.time - r.value.0.video.time == rp.audio.time - rp.video.time
  {
    match SliderPress(s, px)
    case None => None
    case Some(pressed) =>
      var paused := PauseAll(rp);
      var moved := OnVideoSliderChange(paused, pressed.0.value.value);
      Some((PlayAll(moved), SliderRelease(pressed.0).0))
  }
}

=== FILE: gui_lib.dfy ===
/**
 * The value and event-order logic of the pyglet widgets in gui_lib.py.
 * Coordinates and slider values are reals (Python floats, taken as exact).
 * Pushing or removing the widget's handlers on its parent, and every event
 * it dispatches, are recorded in order as a sequence of events.
 */
module GuiLib {
  import opened Wrappers

  /** The placement and extent every `Control` carries. */
  datatype Control = Control(x: real, y: real, width: real, height: real)

  /** Handler capture/release on the parent and the events widgets dispatch. */
  datatype Event = CaptureEvents | ReleaseEvents | Press | BeginScroll | EndScroll | Change(value: real)

  /** `Control.hit_test`: strict inequalities on both axes. */
  function HitTest(c: Control, px: real, py: real): (hit: bool)
    ensures hit ==> c.width > 0.0 && c.height > 0.0
    ensures hit ==> c.x < px < c.x + c.width && c.y < py < c.y + c.height
    ensures !hit ==> px <= c.x || c.x + c.width <= px || py <= c.y || c.y + c.height <= py
  {
    c.x < px < c.x + c.width && c.y < py < c.y + c.height
  }

  /** A point on the border of the rectangle, corners included, is a miss. */
  lemma EdgePointsMiss(c: Control, px: real, py: real)
    requires px == c.x || px == c.x + c.width || py == c.y || py == c.y + c.height
    ensures !HitTest(c, px, py)
  {
  }

  /** Moving a control and a point by the same amount keeps hit or miss. */
  lemma HitTestMovesWithControl(c: Control, dx: real, dy: real, px: real, py: real)
    ensures HitTest(c.(x := c.x + dx, y := c.y + dy), px + dx, py + dy) == HitTest(c, px, py)
  {
  }

  /** Python truthiness of an optional coordinate: None and zero are false. */
  predicate Falsy(a: Option<real>) {
    a.None? || a.value == 0.0
  }

  /** `Control.set_pos(x, y)`: `self.x = x or self.x`, and likewise for y. */
  function SetPos(c: Control, x: Option<real>, y: Option<real>): (r: Control)
    ensures r.width == c.width && r.height == c.height
    ensures r.x == (if Falsy(x) then c.x else x.value)
    ensures r.y == (if Falsy(y) then c.y else y.value)
  {
    c.(x := if Falsy(x) then c.x else x.value, y := if Falsy(y) then c.y else y.value)
  }

  /**
   * Because 0 is falsy, `set_pos(0, 0)` cannot bring a control back to the
   * origin: it stays where it was.
   */
  lemma SetPosCannotReachZero(c: Control)
    requires c.x != 0.0 || c.y != 0.0
    ensures SetPos(c, Some(0.0), Some(0.0)) == c
    ensures SetPos(c, Some(0.0), Some(0.0)) != c.(x := 0.0, y := 0.0)
  {
  }

  /** Placing at a non-zero point is idempotent and reaches exactly that point. */
  lemma SetPosReachesNonZero(c: Control, x: real, y: real)
    requires x != 0.0 && y != 0.0
    ensures SetPos(c, Some(x), Some(y)) == c.(x := x, y := y)
    ensures SetPos(SetPos(c, Some(x), Some(y)), Some(x), Some(y)) == SetPos(c, Some(x), Some(y))
  {
  }

  /** The exception raised when `self.x or self.y` is read before it was ever set. */
  datatype AttributeError = AttributeError(name: string)

  /**
   * The first `set_pos` on a control that has a size but was never placed:
   * `x or self.x` reads the missing `self.x` exactly when `x` is falsy, and
   * likewise for y, after x has been assigned.
   */
  function PlaceNew(width: real, height: real, x: Option<real>, y: Option<real>)
    : (r: Result<Control, AttributeError>)
    ensures r.Success? <==> !Falsy(x) && !Falsy(y)
    ensures Falsy(x) ==> r == Failure(AttributeError("x"))
    ensures !Falsy(x) && Falsy(y) ==> r == Failure(AttributeError("y"))
    ensures r.Success? ==> r.value == Control(x.value, y.value, width, height)
  {
    if Falsy(x) then Failure(AttributeError("x"))
    else if Falsy(y) then Failure(AttributeError("y"))
    else Success(Control(x.value, y.value, width, height))
  }

  /**
   * Once placed, a control behaves as `SetPos` says: placing it again at the
   * same point changes nothing, and a later falsy coordinate keeps the placed one.
   */
  lemma PlacedControlKeepsPosition(width: real, height: real, x: real, y: real, later: Option<real>)
    requires x != 0.0 && y != 0.0
    ensures PlaceNew(width, height, Some(x), Some(y)).Success?
    ensures var c := PlaceNew(width, height, Some(x), Some(y)).value;
            && SetPos(c, Some(x), Some(y)) == c
            && (Falsy(later) ==> SetPos(c, later, later) == c)
  {
  }

  // ------------------------------------------------------------- buttons

  /** A `TextButton`: its control and the position of its centred label. */
  datatype TextButton = TextButton(ctrl: Control, labelX: real, labelY: real)

  /** `TextButton.set_pos`: move as `Control.set_pos` does, and put the label on it. */
  function TextButtonSetPos(b: TextButton, x: Option<real>, y: Option<real>): (r: TextButton)
    ensures r.ctrl == SetPos(b.ctrl, x, y)
    ensures r.labelX == r.ctrl.x && r.labelY == r.ctrl.y
  {
    var c := SetPos(b.ctrl, x, y);
    TextButton(c, c.x, c.y)
  }

  /**
   * The first `TextButton.set_pos` on a button never placed: the same
   * AttributeError as `PlaceNew`, and on success the label sits on the button.
   */
  function TextButtonPlaceNew(width: real, height: real, x: Option<real>, y: Option<real>)
    : (r: Result<TextButton, AttributeError>)
    ensures r.Success? <==> !Falsy(x) && !Falsy(y)
    ensures r.Failure? ==> r.error == PlaceNew(width, height, x, y).error
    ensures r.Success? ==> r.value.ctrl == Control(x.value, y.value, width, height)
    ensures r.Success? ==> r.value.labelX == x.value && r.value.labelY == y.value
  {
    match PlaceNew(width, height, x, y)
    case Failure(e) => Failure(e)
    case Success(c) => Success(TextButton(c, c.x, c.y))
  }

  /** `TextButton.on_mouse_release`: release the handlers; a press only on a hit. */
  function TextButtonRelease(b: TextButton, px: real, py: real): (events: seq<Event>)
    ensures |events| >= 1 && events[0] == ReleaseEvents
    ensures Press in events <==> HitTest(b.ctrl, px, py)
    ensures |events| <= 2
    ensures !HitTest(b.ctrl, px, py) ==> events == [ReleaseEvents]
  {
    if HitTest(b.ctrl, px, py) then [ReleaseEvents, Press] else [ReleaseEvents]
  }

  /** An `ImageButton` and its `active` flag. */
  datatype ImageButton = ImageButton(ctrl: Control, active: bool)

  /**
   * `ImageButton.on_mouse_release`: release the handlers; on a hit flip
   * `active` (`active is False`, on a bool) and dispatch `on_press`.
   */
  function ImageButtonRelease(b: ImageButton, px: real, py: real): (r: (ImageButton, seq<Event>))
    ensures r.0.ctrl == b.ctrl
    ensures HitTest(b.ctrl, px, py) ==> r.0.active == !b.active && r.1 == [ReleaseEvents, Press]
    ensures !HitTest(b.ctrl, px, py) ==> r.0 == b && r.1 == [ReleaseEvents]
  {
    if HitTest(b.ctrl, px, py) then (b.(active := !b.active), [ReleaseEvents, Press])
    else (b, [ReleaseEvents])
  }

  /** Two releases on the button restore its flag; the flag flips once per press dispatched. */
  lemma ImageButtonTwiceRestores(b: ImageButton, px: real, py: real, qx: real, qy: real)
    requires HitTest(b.ctrl, px, py) && HitTest(b.ctrl, qx, qy)
    ensures ImageButtonRelease(ImageButtonRelease(b, px, py).0, qx, qy).0 == b
  {
  }

  // -------------------------------------------------------------- slider

  /** The linear map a slider keeps between pixels and values. */
  datatype Scale = Scale(ctrl: Control, min: real, max: real)

  function Min(a: real, b: real): real { if a <= b then a else b }
  function Max(a: real, b: real): real { if a >= b then a else b }

  /** `min(max(v, lo), hi)`. */
  function Clamp(v: real, lo: real, hi: real): (r: real)
    ensures lo <= hi ==> lo <= r <= hi
    ensures lo <= v <= hi ==> r == v
    ensures hi < v || hi < lo ==> r == hi
    ensures v < lo <= hi ==> r == lo
  {
    Min(Max(v, lo), hi)
  }

  /**
   * `coordinate_to_value(x)`: `float(x - self.x) / self.width * (max - min) + min`.
   * None stands for the ZeroDivisionError of a zero width.
   */
  function CoordinateToValue(s: Scale, px: real): (r: Option<real>)
    ensures r.None? <==> s.ctrl.width == 0.0
    ensures r.Some? && px == s.ctrl.x ==> r.value == s.min
    ensures r.Some? && px == s.ctrl.x + s.ctrl.width ==> r.value == s.max
  {
    if s.ctrl.width == 0.0 then None
    else Some((px - s.ctrl.x) / s.ctrl.width * (s.max - s.min) + s.min)
  }

  /**
   * gui_lib's `value_to_coordinate(value)`: the inverse map, then
   * `max(0, min(coordinate, self.max))` -- clamped against the value bound
   * `max`, not against the slider's pixel extent. None stands for the
   * ZeroDivisionError of `max == min`.
   */
  function ValueToCoordinate(s: Scale, v: real): (r: Option<real>)
    ensures r.None? <==> s.max == s.min
    ensures r.Some? ==> 0.0 <= r.value
    ensures r.Some? && s.max >= 0.0 ==> r.value <= s.max
  {
    if s.max == s.min then None
    else Some(Max(0.0, Min((v - s.min) / (s.max - s.min) * s.ctrl.width + s.ctrl.x, s.max)))
  }

  /** Without the clamp, the two maps are inverse to each other. */
  lemma LinearMapsInverse(s: Scale, px: real)
    requires s.ctrl.width != 0.0 && s.max != s.min
    ensures (CoordinateToValue(s, px).value - s.min) / (s.max - s.min) * s.ctrl.width + s.ctrl.x == px
  {
    var a := (px - s.ctrl.x) / s.ctrl.width;
    var d := s.max - s.min;
    assert CoordinateToValue(s, px).value - s.min == a * d;
    assert a * d / d == a;
    assert a * s.ctrl.width == px - s.ctrl.x;
  }

  /**
   * Round trip through gui_lib's clamped inverse: a pixel comes back clamped
   * into `[0, max]`, so it is exact only for pixels in that range.
   */
  lemma CoordinateRoundTrip(s: Scale, px: real)
    requires s.ctrl.width != 0.0 && s.max != s.min
    ensures ValueToCoordinate(s, CoordinateToValue(s, px).value) == Some(Max(0.0, Min(px, s.max)))
    ensures 0.0 <= px <= s.max ==> ValueToCoordinate(s, CoordinateToValue(s, px).value) == Some(px)
  {
    LinearMapsInverse(s, px);
  }

  /** A gui_lib `Slider`: its scale and the value set at construction. */
  datatype Slider = Slider(scale: Scale, value: real)

  /** `Slider.__init__`: placed at the origin, value at `min_val`. */
  function NewSlider(width: real, height: real, minVal: real, maxVal: real): (s: Slider)
    ensures s.scale.ctrl.x == 0.0 && s.scale.ctrl.y == 0.0 && s.scale.ctrl.width == width
    ensures s.scale.min == minVal && s.scale.max == maxVal && s.value == minVal
  {
    Slider(Scale(Control(0.0, 0.0, width, height), minVal, maxVal), minVal)
  }

  /**
   * `Slider.on_mouse_press`: the value is computed first (a zero width raises
   * before anything else happens); then capture, `on_begin_scroll`, `on_change`.
   */
  function SliderPress(s: Slider, px: real): (r: Option<seq<Event>>)
    ensures r.None? <==> s.scale.ctrl.width == 0.0
    ensures r.Some? ==> |r.value| == 3 && r.value[0] == CaptureEvents && r.value[1] == BeginScroll
    ensures r.Some? ==> r.value[2] == Change(CoordinateToValue(s.scale, px).value)
  {
    match CoordinateToValue(s.scale, px)
    case None => None
    case Some(v) => Some([CaptureEvents, BeginScroll, Change(v)])
  }

  /** `Slider.on_mouse_drag`: one `on_change` with the value clamped into `[min, max]`. */
  function SliderDrag(s: Slider, px: real): (r: Option<seq<Event>>)
    ensures r.None? <==> s.scale.ctrl.width == 0.0
    ensures r.Some? ==> |r.value| == 1 && r.value[0].Change?
    ensures r.Some? && s.scale.min <= s.scale.max ==> s.scale.min <= r.value[0].value <= s.scale.max
    ensures r.Some? && s.scale.min <= CoordinateToValue(s.scale, px).value <= s.scale.max ==>
      r.value[0].value == CoordinateToValue(s.scale, px).value
    ensures r.Some? && s.scale.max < CoordinateToValue(s.scale, px).value ==> r.value[0].value == s.scale.max
    ensures r.Some? && CoordinateToValue(s.scale, px).value < s.scale.min <= s.scale.max ==>
      r.value[0].value == s.scale.min
  {
    match CoordinateToValue(s.scale, px)
    case None => None
    case Some(v) => Some([Change(Clamp(v, s.scale.min, s.scale.max))])
  }

  /**
   * `Slider.on_mouse_release`: release the handlers, then an unclamped
   * `on_change`, then `on_end_scroll`.
   */
  function SliderRelease(s: Slider, px: real): (r: Option<seq<Event>>)
    ensures r.None? <==> s.scale.ctrl.width == 0.0
    ensures r.Some? ==> |r.value| == 3 && r.value[0] == ReleaseEvents && r.value[2] == EndScroll
    ensures r.Some? ==> r.value[1] == Change(CoordinateToValue(s.scale, px).value)
  {
    match CoordinateToValue(s.scale, px)
    case None => None
    case Some(v) => Some([ReleaseEvents, Change(v), EndScroll])
  }

  /**
   * A whole gesture -- press, drag, release -- brackets every `on_change`
   * between one `on_begin_scroll` and one `on_end_scroll`.
   */
  lemma GestureIsBracketed(s: Slider, pressX: real, dragX: real, releaseX: real)
    requires s.scale.ctrl.width != 0.0
    ensures var events := SliderPress(s, pressX).value + SliderDrag(s, dragX).value
                          + SliderRelease(s, releaseX).value;
            && |events| == 7
            && events[1] == BeginScroll && events[6] == EndScroll
            && forall i :: 0 <= i < |events| && events[i].Change? ==> 1 < i < 6
  {
  }
}

=== FILE: offset_db.dfy ===
/**
 * The offset store of db_lib.py: a table from (video hash, audio hash) to an
 * offset, kept either in a local SQLite file (`LocalRiffDatabase`) or by a
 * remote service (`RemoteRiffDatabase`), behind the hashing front end of
 * `RiffDatabase`. SQL is modelled by its meaning: the UNIQUE index on
 * (VideoFileHash, AudioFileHash) together with INSERT OR REPLACE makes the
 * table a map, and the transport is an oracle that either works or fails.
 */
module OffsetDb {
  import opened Wrappers
  import opened ContentHash

  const DEFAULT_DB_FILE: string := "riffdb.sqlite"
  const DEFAULT_REMOTE_URL: string := "http://www.openriff.com/db"

  /** A row key: (VideoFileHash, AudioFileHash), in that order. */
  type Key = (string, string)

  /** The `Offsets` table; the unique index allows one row per key. */
  type Table<V> = map<Key, V>

  /** An open connection to the SQLite file at `path`. */
  datatype LocalDb<V> = LocalDb(path: string, offsets: Table<V>)

  /**
   * `after` is `before` with the row for `key` inserted or replaced by
   * `offset`, and every other row kept: what INSERT OR REPLACE does on a
   * table with a unique index on the key.
   */
  ghost predicate Upserted<V>(before: Table<V>, after: Table<V>, key: Key, offset: V) {
    && after.Keys == before.Keys + {key}
    && after[key] == offset
    && forall k :: k in before && k != key ==> after[k] == before[k]
  }

  // ---------------------------------------------------------------- local

  /**
   * `_init_db`: connect, drop and re-create the table and index. Whatever the
   * file held before is gone; a sqlite3.OperationalError becomes OperationError.
   */
  function InitDb<V>(path: string, sqliteFails: bool): (r: Result<LocalDb<V>, OperationError>)
    ensures r.Failure? <==> sqliteFails
    ensures r.Failure? ==> r.error == OperationError(SqliteError)
    ensures r.Success? ==> r.value.path == path && |r.value.offsets| == 0
  {
    if sqliteFails then Failure(OperationError(SqliteError))
    else Success(LocalDb(path, map[]))
  }

  /**
   * `_open_db(path, overwrite)`, as run by `LocalRiffDatabase(path, overwrite)`.
   * `onDisk` is the table stored at `path`, or None when the path does not
   * exist; `sqliteFails` says whether sqlite3 raises OperationalError.
   */
  function OpenDb<V>(path: string, onDisk: Option<Table<V>>, overwrite: bool, sqliteFails: bool)
    : (r: Result<LocalDb<V>, OperationError>)
    ensures r.Failure? <==> sqliteFails
    ensures r.Failure? ==> r.error == OperationError(SqliteError)
    ensures r.Success? ==> r.value.path == path
    ensures r.Success? && (onDisk.None? || overwrite) ==> r.value.offsets == map[]
    ensures r.Success? && onDisk.Some? && !overwrite ==> r.value.offsets == onDisk.value
  {
    if onDisk.None? || overwrite then InitDb(path, sqliteFails)
    else if sqliteFails then Failure(OperationError(SqliteError))
    else Success(LocalDb(path, onDisk.value))
  }

  /** `_add_offset`: INSERT OR REPLACE, then commit. */
  function LocalAdd<V>(db: LocalDb<V>, videoHash: string, audioHash: string, offset: V)
    : (r: LocalDb<V>)
    ensures r.path == db.path
    ensures Upserted(db.offsets, r.offsets, (videoHash, audioHash), offset)
  {
    db.(offsets := db.offsets[(videoHash, audioHash) := offset])
  }

  /** `_get_offset`: the single matching row's Offset, or None when there is none. */
  function LocalGet<V>(db: LocalDb<V>, videoHash: string, audioHash: string): (r: Option<V>)
    ensures r.Some? <==> (videoHash, audioHash) in db.offsets
    ensures r.Some? ==> r.value == db.offsets[(videoHash, audioHash)]
  {
    if (videoHash, audioHash) in db.offsets then Some(db.offsets[(videoHash, audioHash)])
    else None
  }

  /** Round trip: what was added for a pair is what is read back for it. */
  lemma LocalRoundTrip<V>(db: LocalDb<V>, videoHash: string, audioHash: string, offset: V)
    ensures LocalGet(LocalAdd(db, videoHash, audioHash, offset), videoHash, audioHash) == Some(offset)
  {
  }

  /** Upsert: a second add for the same pair replaces the first one entirely. */
  lemma LocalUpsert<V>(db: LocalDb<V>, videoHash: string, audioHash: string, first: V, second: V)
    ensures LocalAdd(LocalAdd(db, videoHash, audioHash, first), videoHash, audioHash, second)
         == LocalAdd(db, videoHash, audioHash, second)
    ensures LocalGet(LocalAdd(LocalAdd(db, videoHash, audioHash, first), videoHash, audioHash, second),
                     videoHash, audioHash) == Some(second)
  {
  }

  /** An add for one pair leaves every other pair's lookup as it was. */
  lemma LocalAddIsolated<V>(db: LocalDb<V>, videoHash: string, audioHash: string, offset: V,
                            otherVideo: string, otherAudio: string)
    requires (otherVideo, otherAudio) != (videoHash, audioHash)
    ensures LocalGet(LocalAdd(db, videoHash, audioHash, offset), otherVideo, otherAudio)
         == LocalGet(db, otherVideo, otherAudio)
  {
  }

  /** A freshly initialised store answers None, never an error, for every pair. */
  lemma FreshStoreIsEmpty<V>(path: string, onDisk: Option<Table<V>>, overwrite: bool,
                             videoHash: string, audioHash: string)
    requires onDisk.None? || overwrite
    ensures OpenDb<V>(path, onDisk, overwrite, false).Success?
    ensures LocalGet(OpenDb<V>(path, onDisk, overwrite, false).value, videoHash, audioHash) == None
  {
  }

  /** Opening an existing store without overwrite answers exactly what was stored. */
  lemma ReopenKeepsOffsets<V>(db: LocalDb<V>, videoHash: string, audioHash: string)
    ensures OpenDb(db.path, Some(db.offsets), false, false) == Success(db)
    ensures LocalGet(OpenDb(db.path, Some(db.offsets), false, false).value, videoHash, audioHash)
         == LocalGet(db, videoHash, audioHash)
  {
  }

  // --------------------------------------------- local, as the file has it

  /** What the as-written methods raise: a NameError, or the library's OperationError. */
  datatype PythonError = NameError(name: string) | Raised(error: OperationError)

  /**
   * `_add_offset` as written: the statement refers to `_ADD_OFFSET_SQL`, a
   * class attribute, without `self.`, so the name lookup fails before SQLite
   * is reached.
   */
  function LocalAddAsWritten<V>(db: LocalDb<V>, videoHash: string, audioHash: string, offset: V)
    : (r: Result<LocalDb<V>, PythonError>)
    ensures r.Failure? && r.error == NameError("_ADD_OFFSET_SQL")
  {
    Failure(NameError("_ADD_OFFSET_SQL"))
  }

  /** `_get_offset` as written: the same unqualified name, `_GET_OFFSET_SQL`. */
  function LocalGetAsWritten<V>(db: LocalDb<V>, videoHash: string, audioHash: string)
    : (r: Result<Option<V>, PythonError>)
    ensures r.Failure? && r.error == NameError("_GET_OFFSET_SQL")
  {
    Failure(NameError("_GET_OFFSET_SQL"))
  }

  /**
   * `_init_db` as written: `sqlite3.connect(path)` runs first, and its
   * OperationalError still becomes OperationError; once connected,
   * `executescript(_INIT_SQL)` fails on the same kind of name lookup, and a
   * NameError is not the sqlite3.OperationalError the handler catches, so it
   * escapes instead of becoming an OperationError.
   */
  function InitDbAsWritten<V>(path: string, sqliteFails: bool): (r: Result<LocalDb<V>, PythonError>)
    ensures r.Failure?
    ensures sqliteFails ==> r.error == Raised(OperationError(SqliteError))
    ensures !sqliteFails ==> r.error == NameError("_INIT_SQL")
  {
    if sqliteFails then Failure(Raised(OperationError(SqliteError)))
    else Failure(NameError("_INIT_SQL"))
  }

  /**
   * As written, the round trip never completes: for every store, pair and
   * offset, the add raises instead of storing, and a read raises instead of
   * answering, even on a pair that was never written, and a new store
   * cannot even be created; the corrected definitions do all three.
   */
  lemma AsWrittenRoundTripFails<V>(db: LocalDb<V>, videoHash: string, audioHash: string, offset: V)
    ensures LocalAddAsWritten(db, videoHash, audioHash, offset).Failure?
    ensures LocalGetAsWritten<V>(db, videoHash, audioHash).Failure?
    ensures InitDbAsWritten<V>(db.path, false).Failure? && InitDb<V>(db.path, false).Success?
    ensures InitDbAsWritten<V>(db.path, true).error == Raised(InitDb<V>(db.path, true).error)
    ensures LocalGet(LocalAdd(db, videoHash, audioHash, offset), videoHash, audioHash) == Some(offset)
  {
  }

  // --------------------------------------------------------------- remote

  /**
   * `RemoteRiffDatabase._add_offset`: one POST; a URLError becomes
   * OperationError. The service is modelled by the table it keeps.
   */
  function RemoteAdd<V>(server: Table<V>, videoHash: string, audioHash: string, offset: V,
                        reachable: bool)
    : (r: Result<Table<V>, OperationError>)
    ensures r.Failure? <==> !reachable
    ensures r.Failure? ==> r.error == OperationError(UrlError)
    ensures r.Success? ==> Upserted(server, r.value, (videoHash, audioHash), offset)
  {
    if reachable then Success(server[(videoHash, audioHash) := offset])
    else Failure(OperationError(UrlError))
  }

  /**
   * `RemoteRiffDatabase._get_offset`: one GET; an empty body means None, and
   * any failure becomes OperationError.
   */
  function RemoteGet<V>(server: Table<V>, videoHash: string, audioHash: string, reachable: bool)
    : (r: Result<Option<V>, OperationError>)
    ensures r.Failure? <==> !reachable
    ensures r.Failure? ==> r.error == OperationError(UrlError)
    ensures r.Success? ==> (r.value.Some? <==> (videoHash, audioHash) in server)
    ensures r.Success? && r.value.Some? ==> r.value.value == server[(videoHash, audioHash)]
  {
    if !reachable then Failure(OperationError(UrlError))
    else if (videoHash, audioHash) in server then Success(Some(server[(videoHash, audioHash)]))
    else Success(None)
  }

  // ------------------------------------------------------------ front end

  /** The two concrete `RiffDatabase` subclasses. */
  datatype Backend<V> = Local(db: LocalDb<V>) | Remote(url: string, server: Table<V>)

  /** The table a backend answers from: the SQLite file's, or the service's. */
  function Contents<V>(b: Backend<V>): Table<V> {
    match b
    case Local(db) => db.offsets
    case Remote(_, server) => server
  }

  /** The key `add_offset`/`get_offset` compute: video file first, then audio file. */
  function HashPair(fs: FileSystem, md5: Digest, videoFile: string, audioFile: string)
    : (r: Result<Key, OperationError>)
    ensures r.Success? <==> videoFile in fs && audioFile in fs
    ensures videoFile !in fs ==> r == Failure(OperationError(IOError))
    ensures r.Success? ==> r.value == (CalculateHash(fs, md5, Some(videoFile)).value,
                                       CalculateHash(fs, md5, Some(audioFile)).value)
  {
    match CalculateHash(fs, md5, Some(videoFile))
    case Failure(e) => Failure(e)
    case Success(videoHash) =>
      match CalculateHash(fs, md5, Some(audioFile))
      case Failure(e) => Failure(e)
      case Success(audioHash) => Success((videoHash, audioHash))
  }

  /** `RiffDatabase.add_offset`: hash both files, then delegate to the backend. */
  function AddOffset<V>(b: Backend<V>, fs: FileSystem, md5: Digest, videoFile: string,
                        audioFile: string, offset: V, reachable: bool)
    : (r: Result<Backend<V>, OperationError>)
    ensures r.Success? <==> videoFile in fs && audioFile in fs && (b.Local? || reachable)
    ensures r.Success? ==> r.value.Local? == b.Local?
    ensures r.Success? && b.Local? ==> r.value.db.path == b.db.path
    ensures r.Success? && b.Remote? ==> r.value.url == b.url
    ensures r.Success? ==>
      Upserted(Contents(b), Contents(r.value), HashPair(fs, md5, videoFile, audioFile).value, offset)
  {
    match HashPair(fs, md5, videoFile, audioFile)
    case Failure(e) => Failure(e)
    case Success(key) =>
      match b
      case Local(db) => Success(Local(LocalAdd(db, key.0, key.1, offset)))
      case Remote(url, server) =>
        match RemoteAdd(server, key.0, key.1, offset, reachable)
        case Failure(e) => Failure(e)
        case Success(server') => Success(Remote(url, server'))
  }

  /** `RiffDatabase.get_offset`: hash both files, then delegate to the backend. */
  function GetOffset<V>(b: Backend<V>, fs: FileSystem, md5: Digest, videoFile: string,
                        audioFile: string, reachable: bool)
    : (r: Result<Option<V>, OperationError>)
    ensures r.Success? <==> videoFile in fs && audioFile in fs && (b.Local? || reachable)
    ensures r.Success? ==>
      (r.value.Some? <==> HashPair(fs, md5, videoFile, audioFile).value in Contents(b))
    ensures r.Success? && r.value.Some? ==>
      r.value.value == Contents(b)[HashPair(fs, md5, videoFile, audioFile).value]
  {
    match HashPair(fs, md5, videoFile, audioFile)
    case Failure(e) => Failure(e)
    case Success(key) =>
      match b
      case Local(db) => Success(LocalGet(db, key.0, key.1))
      case Remote(_, server) => RemoteGet(server, key.0, key.1, reachable)
  }

  /** Through either backend, a successful add is read back by the same pair of files. */
  lemma FrontEndRoundTrip<V>(b: Backend<V>, fs: FileSystem, md5: Digest, videoFile: string,
                             audioFile: string, offset: V)
    requires AddOffset(b, fs, md5, videoFile, audioFile, offset, true).Success?
    ensures GetOffset(AddOffset(b, fs, md5, videoFile, audioFile, offset, true).value,
                      fs, md5, videoFile, audioFile, true) == Success(Some(offset))
  {
  }

  /**
   * The key is ordered: when the two files hash differently, storing an
   * offset for (video, audio) does not change what (audio, video) reads.
   */
  lemma SwappedFilesAreAnotherKey<V>(b: Backend<V>, fs: FileSystem, md5: Digest,
                                     videoFile: string, audioFile: string, offset: V)
    requires AddOffset(b, fs, md5, videoFile, audioFile, offset, true).Success?
    requires CalculateHash(fs, md5, Some(videoFile)) != CalculateHash(fs, md5, Some(audioFile))
    ensures GetOffset(AddOffset(b, fs, md5, videoFile, audioFile, offset, true).value,
                      fs, md5, audioFile, videoFile, true)
         == GetOffset(b, fs, md5, audioFile, videoFile, true)
  {
  }

  /** A renamed copy of a file addresses the same row: lookup is by content. */
  lemma LookupFollowsContent<V>(b: Backend<V>, fs: FileSystem, md5: Digest,
                                videoFile: string, copy: string, audioFile: string)
    requires videoFile in fs && copy in fs && fs[copy] == fs[videoFile]
    ensures GetOffset(b, fs, md5, copy, audioFile, true) == GetOffset(b, fs, md5, videoFile, audioFile, true)
  {
  }

  // ------------------------------------------------------------ selection

  /** Outcome of the single connectivity probe `urlopen(DEFAULT_REMOTE_URL)`. */
  datatype Probe = Reachable | Unreachable

  /**
   * `GetRiffDatabase(force_local)`: the local file unless the remote service
   * answers the one probe. `onDisk`/`sqliteFails` describe the default local
   * file and `server` the remote service's table.
   */
  function GetRiffDatabase<V>(forceLocal: bool, probe: Probe, onDisk: Option<Table<V>>,
                              sqliteFails: bool, server: Table<V>)
    : (r: Result<Backend<V>, OperationError>)
    ensures !forceLocal && probe == Reachable ==> r == Success(Remote(DEFAULT_REMOTE_URL, server))
    ensures forceLocal || probe == Unreachable ==>
      (r.Failure? <==> sqliteFails) &&
      (r.Success? ==> r.value.Local? && r.value.db.path == DEFAULT_DB_FILE)
    ensures (forceLocal || probe == Unreachable) && r.Success? && onDisk.Some? ==>
      r.value.db.offsets == onDisk.value
    ensures (forceLocal || probe == Unreachable) && r.Success? && onDisk.None? ==>
      r.value.db.offsets == map[]
  {
    if !forceLocal && probe == Reachable then Success(Remote(DEFAULT_REMOTE_URL, server))
    else
      match OpenDb(DEFAULT_DB_FILE, onDisk, false, sqliteFails)
      case Failure(e) => Failure(e)
      case Success(db) => Success(Local(db))
  }

  /**
   * Forcing the local store is the same as a failed probe, and the store so
   * chosen answers every lookup from the table already in the default file.
   */
  lemma LocalFallbackAnswersFromDisk<V>(probe: Probe, table: Table<V>, server: Table<V>,
                                        fs: FileSystem, md5: Digest, videoFile: string, audioFile: string)
    requires videoFile in fs && audioFile in fs
    ensures GetRiffDatabase(true, probe, Some(table), false, server)
         == GetRiffDatabase(false, Unreachable, Some(table), false, server)
    ensures GetRiffDatabase(true, probe, Some(table), false, server).Success?
    ensures var b := GetRiffDatabase(true, probe, Some(table), false, server).value;
            var key := HashPair(fs, md5, videoFile, audioFile).value;
            GetOffset(b, fs, md5, videoFile, audioFile, false)
              == Success(if key in table then Some(table[key]) else None)
  {
  }

  /** A reachable service is used as is: lookups go to its table, whatever is on disk. */
  lemma ReachableServiceIsUsed<V>(onDisk: Option<Table<V>>, sqliteFails: bool, server: Table<V>,
                                  fs: FileSystem, md5: Digest, videoFile: string, audioFile: string)
    requires videoFile in fs && audioFile in fs
    ensures var b := GetRiffDatabase(false, Reachable, onDisk, sqliteFails, server).value;
            var key := HashPair(fs, md5, videoFile, audioFile).value;
            GetOffset(b, fs, md5, videoFile, audioFile, true)
              == Success(if key in server then Some(server[key]) else None)
  {
  }
}

=== FILE: sync_frame.dfy ===
/**
 * The non-UI state of `RiffPlayerFrame` (riffplayer.py): the chosen files,
 * the open offset store, the sync flag and offset (integer milliseconds), and
 * the two media controls reduced to position, length and readiness.
 * Every event handler is a pure function from the frame before to the frame
 * after; a handler that lets an exception escape returns the frame as it was
 * when the exception was raised, together with that exception.
 */
module SyncFrame {
  import opened Wrappers
  import opened ContentHash
  import opened OffsetDb

  /** Drift, in ms, tolerated before the riff is re-seeked. */
  const DRIFT_TOLERANCE: int := 100

  const UNABLE_TO_SAVE: string := "Unable to save offset"
  const OPEN_DB_FAILED: string := "Error opening riff database"

  /**
   * A `wx.media.MediaCtrl`: `Tell()` gives `pos`, `Length()` gives `len`, and
   * when no medium is loaded (`!ready`) those calls and `Seek` raise.
   */
  datatype Track = Track(pos: int, len: int, ready: bool)

  datatype Frame = Frame(
    videoFile: Option<string>,
    riffFile: Option<string>,
    dbFile: Option<string>,
    db: Option<LocalDb<int>>,
    synced: bool,
    offset: int,
    video: Track,
    riff: Track)

  /** What escapes a handler: an OperationError, or the AttributeError of calling into a missing store. */
  datatype Fault = Operation(error: OperationError) | NoDatabase

  /** A handler's effect: the frame afterwards, an error dialog it showed, an exception it raised. */
  datatype Step = Step(frame: Frame, dialog: Option<string>, raised: Option<Fault>)

  function Abs(x: int): nat {
    if x < 0 then -x else x
  }

  /** The state `__init__` leaves: nothing chosen, unsynced, offset 0. */
  function NewFrame(video: Track, riff: Track): (f: Frame)
    ensures !f.synced && f.offset == 0
    ensures f.videoFile.None? && f.riffFile.None? && f.dbFile.None? && f.db.None?
    ensures f.video == video && f.riff == riff
  {
    Frame(None, None, None, None, false, 0, video, riff)
  }

  predicate FilesChosen(f: Frame) {
    f.videoFile.Some? && f.riffFile.Some?
  }

  /** The `None in (video_file, riff_file, db_file)` guard, negated. */
  predicate AllChosen(f: Frame) {
    FilesChosen(f) && f.dbFile.Some?
  }

  /** The drift corrector runs to the end: synced, both files chosen, both tracks answer. */
  predicate Engaged(f: Frame) {
    f.synced && FilesChosen(f) && f.video.ready && f.riff.ready
  }

  /** Where the riff should be: `min(riff length, max(video position + offset, 0))`. */
  function CorrectionTarget(videoPos: int, offset: int, riffLen: int): (t: int)
    ensures t <= riffLen
    ensures riffLen >= 0 ==> 0 <= t
    ensures t == riffLen || t == 0 || t == videoPos + offset
    ensures 0 <= videoPos + offset <= riffLen ==> t == videoPos + offset
    ensures riffLen < 0 || riffLen < videoPos + offset ==> t == riffLen
    ensures videoPos + offset < 0 <= riffLen ==> t == 0
  {
    var wanted := if videoPos + offset > 0 then videoPos + offset else 0;
    if riffLen < wanted then riffLen else wanted
  }

  function Target(f: Frame): int {
    CorrectionTarget(f.video.pos, f.offset, f.riff.len)
  }

  /** How far the riff is from where the offset says it should be. */
  function Drift(f: Frame): nat {
    Abs(Target(f) - f.riff.pos)
  }

  /**
   * `_ApplyOffset`: when engaged, seek the riff to the target if it has
   * drifted by more than the tolerance. A track that is not ready makes
   * `Tell`/`Length` raise; that is logged and swallowed, so nothing changes.
   */
  function ApplyOffset(f: Frame): (r: Frame)
    ensures r == f.(riff := r.riff)
    ensures r.riff.len == f.riff.len && r.riff.ready == f.riff.ready
    ensures !Engaged(f) ==> r == f
    ensures Engaged(f) && Drift(f) <= DRIFT_TOLERANCE ==> r == f
    ensures Engaged(f) && Drift(f) > DRIFT_TOLERANCE ==> r.riff.pos == Target(f)
  {
    if !f.synced || f.videoFile.None? || f.riffFile.None? then f
    else if !f.video.ready || !f.riff.ready then f
    else
      var target := CorrectionTarget(f.video.pos, f.offset, f.riff.len);
      if Abs(target - f.riff.pos) > DRIFT_TOLERANCE then f.(riff := f.riff.(pos := target))
      else f
  }

  /** After a correction the riff is within the tolerance of the target. */
  lemma ApplyOffsetSettles(f: Frame)
    requires Engaged(f)
    ensures Drift(ApplyOffset(f)) <= DRIFT_TOLERANCE
    ensures f.riff.len >= 0 ==> 0 <= ApplyOffset(f).riff.pos <= f.riff.len || ApplyOffset(f) == f
  {
  }

  /** A second correction right after the first one never seeks. */
  lemma ApplyOffsetIdempotent(f: Frame)
    ensures ApplyOffset(ApplyOffset(f)) == ApplyOffset(f)
  {
  }

  /** `SetOffset(offset)`: adopt the offset, force sync on, correct once. */
  function SetOffset(f: Frame, offset: int): (r: Frame)
    ensures r.offset == offset && r.synced
    ensures r.videoFile == f.videoFile && r.riffFile == f.riffFile
    ensures r.dbFile == f.dbFile && r.db == f.db && r.video == f.video
    ensures r.riff.len == f.riff.len && r.riff.ready == f.riff.ready
    ensures !FilesChosen(f) || !f.video.ready || !f.riff.ready ==> r.riff == f.riff
    ensures Engaged(r) ==> Drift(r) <= DRIFT_TOLERANCE
    ensures r.riff == f.riff || r.riff == f.riff.(pos := Target(r))
    ensures Drift(f.(offset := offset, synced := true)) <= DRIFT_TOLERANCE ==> r.riff == f.riff
  {
    ApplyOffset(f.(offset := offset, synced := true))
  }

  /** `_CalculateOffset`: riff position minus video position, or 0 when a `Tell` raises. */
  function CalculateOffset(f: Frame): (o: int)
    ensures f.video.ready && f.riff.ready ==> f.video.pos + o == f.riff.pos
    ensures !(f.video.ready && f.riff.ready) ==> o == 0
  {
    if f.video.ready && f.riff.ready then f.riff.pos - f.video.pos else 0
  }

  /** `OnToggleSync`: flip the flag; turning it on measures and adopts the current drift. */
  function OnToggleSync(f: Frame): (r: Frame)
    ensures r.synced == !f.synced
    ensures f.synced ==> r == f.(synced := false)
    ensures !f.synced ==> r == f.(synced := true, offset := CalculateOffset(f), riff := r.riff)
    ensures !f.synced ==> r == SetOffset(f, CalculateOffset(f))
    ensures r.riff.len == f.riff.len && r.riff.ready == f.riff.ready
  {
    if f.synced then f.(synced := false)
    else SetOffset(f.(synced := true), CalculateOffset(f))
  }

  /**
   * Turning sync on while both tracks play at a position the riff really
   * has does not move the riff: the adopted offset is exactly its drift.
   */
  lemma EnablingSyncDoesNotJump(f: Frame)
    requires !f.synced && f.video.ready && f.riff.ready
    requires 0 <= f.riff.pos <= f.riff.len
    ensures OnToggleSync(f).riff == f.riff
    ensures OnToggleSync(f).offset == f.riff.pos - f.video.pos
  {
  }

  /** Turning sync off keeps the offset, and turning it on again re-measures. */
  lemma DisablingKeepsOffset(f: Frame)
    requires f.synced
    ensures OnToggleSync(f).offset == f.offset && !OnToggleSync(f).synced
    ensures OnToggleSync(OnToggleSync(f)).synced
    ensures OnToggleSync(OnToggleSync(f)).offset == CalculateOffset(f)
  {
  }

  /** The key the frame's store is addressed with: hashes of the video and riff files. */
  function FrameKey(f: Frame, fs: FileSystem, md5: Digest): Result<Key, OperationError>
    requires FilesChosen(f)
  {
    HashPair(fs, md5, f.videoFile.value, f.riffFile.value)
  }

  /**
   * The offset the frame's open store holds for its chosen files: None unless
   * video, riff and store file are chosen, the store is open and both files
   * are readable, and None when the store has no row for their hashes.
   */
  function Stored(f: Frame, fs: FileSystem, md5: Digest): Option<int> {
    if !AllChosen(f) || f.db.None? || f.videoFile.value !in fs || f.riffFile.value !in fs then None
    else
      var key := (CalculateHash(fs, md5, f.videoFile).value, CalculateHash(fs, md5, f.riffFile).value);
      if key in f.db.value.offsets then Some(f.db.value.offsets[key]) else None
  }

  /** Whether loading for the frame lets an exception escape: a chosen set with no open store or an unreadable file. */
  predicate LoadRaises(f: Frame, fs: FileSystem) {
    AllChosen(f) && (f.db.None? || f.videoFile.value !in fs || f.riffFile.value !in fs)
  }

  /**
   * `_LoadOffset`: with video, riff and store all chosen, look the pair up
   * and adopt a stored value through `SetOffset`; no stored value changes
   * nothing. A hashing failure, or a store that never opened, escapes.
   */
  function LoadOffset(f: Frame, fs: FileSystem, md5: Digest): (r: Step)
    ensures r.dialog.None?
    ensures r.raised.Some? || r.frame == f || r.frame == SetOffset(f, r.frame.offset)
    ensures r.raised.Some? ==> r.frame == f
    ensures !AllChosen(f) ==> r == Step(f, None, None)
    ensures AllChosen(f) && f.db.None? ==> r.raised == Some(NoDatabase)
    ensures AllChosen(f) && f.db.Some? ==>
      (r.raised.None? <==> f.videoFile.value in fs && f.riffFile.value in fs)
    ensures AllChosen(f) && f.db.Some? && FrameKey(f, fs, md5).Success? ==>
      (FrameKey(f, fs, md5).value !in f.db.value.offsets ==> r == Step(f, None, None)) &&
      (FrameKey(f, fs, md5).value in f.db.value.offsets ==>
         r.frame.offset == f.db.value.offsets[FrameKey(f, fs, md5).value] && r.frame.synced)
    ensures r.raised.Some? <==> LoadRaises(f, fs)
    ensures Stored(f, fs, md5).Some? ==> r == Step(SetOffset(f, Stored(f, fs, md5).value), None, None)
    ensures Stored(f, fs, md5).None? ==> r.frame == f
  {
    if f.videoFile.None? || f.riffFile.None? || f.dbFile.None? then Step(f, None, None)
    else if f.db.None? then Step(f, None, Some(NoDatabase))
    else
      match HashPair(fs, md5, f.videoFile.value, f.riffFile.value)
      case Failure(e) => Step(f, None, Some(Operation(e)))
      case Success(key) =>
        match LocalGet(f.db.value, key.0, key.1)
        case None => Step(f, None, None)
        case Some(offset) => Step(SetOffset(f, offset), None, None)
  }

  /**
   * `OnSaveOffset`: refuse with a dialog unless video, riff and store are all
   * chosen; otherwise write the current offset for the (video, riff) pair.
   * Nothing but the store changes.
   */
  function OnSaveOffset(f: Frame, fs: FileSystem, md5: Digest): (r: Step)
    ensures r.frame == f.(db := r.frame.db)
    ensures r.dialog == Some(UNABLE_TO_SAVE) <==> !AllChosen(f)
    ensures !AllChosen(f) ==> r.frame == f && r.raised.None?
    ensures AllChosen(f) && f.db.None? ==> r.raised == Some(NoDatabase)
    ensures r.raised.Some? ==> r.frame == f
    ensures AllChosen(f) && f.db.Some? ==>
      (r.raised.None? <==> f.videoFile.value in fs && f.riffFile.value in fs)
    ensures r.raised.None? && AllChosen(f) ==>
      r.frame.db.Some? && r.frame.db.value.path == f.db.value.path &&
      FrameKey(f, fs, md5).Success? &&
      Upserted(f.db.value.offsets, r.frame.db.value.offsets, FrameKey(f, fs, md5).value, f.offset)
  {
    if f.videoFile.None? || f.riffFile.None? || f.dbFile.None? then Step(f, Some(UNABLE_TO_SAVE), None)
    else if f.db.None? then Step(f, None, Some(NoDatabase))
    else
      match HashPair(fs, md5, f.videoFile.value, f.riffFile.value)
      case Failure(e) => Step(f, None, Some(Operation(e)))
      case Success(key) => Step(f.(db := Some(LocalAdd(f.db.value, key.0, key.1, f.offset))), None, None)
  }

  /**
   * Save, then load on any frame holding the same files and the saved store:
   * the frame ends synced on the saved offset without re-measuring.
   */
  lemma SaveThenLoad(f: Frame, g: Frame, fs: FileSystem, md5: Digest)
    requires OnSaveOffset(f, fs, md5).raised.None? && AllChosen(f)
    requires g.videoFile == f.videoFile && g.riffFile == f.riffFile && g.dbFile.Some?
    requires g.db == OnSaveOffset(f, fs, md5).frame.db
    ensures LoadOffset(g, fs, md5).raised.None?
    ensures LoadOffset(g, fs, md5).frame == SetOffset(g, f.offset)
    ensures LoadOffset(g, fs, md5).frame.synced && LoadOffset(g, fs, md5).frame.offset == f.offset
  {
  }

  /**
   * `SetDbFile(filename)`, bound to `LocalRiffDatabase(filename)`: record the
   * name, open the store (a failure shows a dialog and keeps the previous
   * store), then load and apply the offset for the current files.
   */
  function SetDbFile(f: Frame, filename: string, onDisk: Option<Table<int>>, sqliteFails: bool,
                     fs: FileSystem, md5: Digest): (r: Step)
    ensures r.frame.dbFile == Some(filename)
    ensures r.frame.videoFile == f.videoFile && r.frame.riffFile == f.riffFile
    ensures r.frame.video == f.video
    ensures r.frame.riff.len == f.riff.len && r.frame.riff.ready == f.riff.ready
    ensures !Engaged(r.frame) ==> r.frame.riff == f.riff
    ensures r.frame.riff == f.riff || r.frame.riff == f.riff.(pos := Target(r.frame))
    ensures r.raised.None? && Engaged(r.frame) ==> Drift(r.frame) <= DRIFT_TOLERANCE
    ensures r.dialog.Some? <==> sqliteFails
    ensures sqliteFails ==> r.frame.db == f.db
    ensures !sqliteFails ==> r.frame.db.Some? && r.frame.db.value.path == filename
    ensures !sqliteFails && onDisk.Some? ==> r.frame.db.value.offsets == onDisk.value
    ensures !sqliteFails && onDisk.None? ==> r.frame.db.value.offsets == map[] && r.frame.offset == f.offset
    ensures r.raised.Some? <==> LoadRaises(f.(dbFile := Some(filename), db := r.frame.db), fs)
    ensures var s := Stored(f.(dbFile := Some(filename), db := r.frame.db), fs, md5);
            && (s.Some? ==> r.raised.None? && r.frame.synced && r.frame.offset == s.value)
            && (s.None? ==> r.frame.synced == f.synced && r.frame.offset == f.offset)
  {
    var f1 := f.(dbFile := Some(filename));
    var opening := OpenDb(filename, onDisk, false, sqliteFails);
    var f2 := if opening.Success? then f1.(db := Some(opening.value)) else f1;
    var dialog := if opening.Success? then None else Some(OPEN_DB_FAILED);
    var loaded := LoadOffset(f2, fs, md5);
    if loaded.raised.Some? then Step(loaded.frame, dialog, loaded.raised)
    else Step(ApplyOffset(loaded.frame), dialog, None)
  }

  /**
   * `OnChooseDb`: stop, then, unless the file dialog was cancelled (`choice`
   * is None), switch to the chosen store file through `SetDbFile`.
   */
  function OnChooseDb(f: Frame, choice: Option<string>, onDisk: Option<Table<int>>, sqliteFails: bool,
                      fs: FileSystem, md5: Digest): (r: Step)
    ensures r.frame.video == Stop(f).video
    ensures r.frame.videoFile == f.videoFile && r.frame.riffFile == f.riffFile
    ensures choice.None? ==> r == Step(Stop(f), None, None)
    ensures choice.Some? ==> r == SetDbFile(Stop(f), choice.value, onDisk, sqliteFails, fs, md5)
    ensures choice.Some? && sqliteFails ==> r.frame.db == f.db
    ensures choice.Some? && !sqliteFails ==>
      r.frame.db == Some(LocalDb(choice.value, if onDisk.Some? then onDisk.value else map[]))
    ensures choice.Some? ==> r.frame.dbFile == choice && (r.dialog.Some? <==> sqliteFails)
    ensures choice.Some? ==>
      var s := Stored(Stop(f).(dbFile := choice, db := r.frame.db), fs, md5);
      && (s.Some? ==> r.raised.None? && r.frame.synced && r.frame.offset == s.value)
      && (s.None? ==> r.frame.synced == f.synced && r.frame.offset == f.offset)
  {
    var stopped := Stop(f);
    if choice.None? then Step(stopped, None, None)
    else SetDbFile(stopped, choice.value, onDisk, sqliteFails, fs, md5)
  }

  /** `Stop()`: both media controls stop and rewind to the start. */
  function Stop(f: Frame): (r: Frame)
    ensures r.video.pos == 0 && r.riff.pos == 0
    ensures r.video.len == f.video.len && r.riff.len == f.riff.len
    ensures r.video.ready == f.video.ready && r.riff.ready == f.riff.ready
    ensures r == f.(video := r.video, riff := r.riff)
  {
    f.(video := f.video.(pos := 0), riff := f.riff.(pos := 0))
  }

  /**
   * `OnChooseRiff`: stop, record the chosen file (None when the dialog was
   * cancelled), load it (`loaded` is the control afterwards), then load and
   * apply the stored offset.
   */
  function OnChooseRiff(f: Frame, choice: Option<string>, loaded: Track, fs: FileSystem, md5: Digest)
    : (r: Step)
    ensures r.frame.riffFile == choice && r.frame.videoFile == f.videoFile
    ensures r.frame.video == Stop(f).video
    ensures r.frame.db == f.db && r.dialog.None?
    ensures r.frame.riff.len == loaded.len && r.frame.riff.ready == loaded.ready
    ensures r.frame.dbFile == f.dbFile
    ensures r.raised.Some? || !Engaged(r.frame) ==> r.frame.riff == loaded
    ensures r.frame.riff == loaded || r.frame.riff == loaded.(pos := Target(r.frame))
    ensures r.raised.None? && Engaged(r.frame) ==> Drift(r.frame) <= DRIFT_TOLERANCE
    ensures r.raised.Some? <==> LoadRaises(f.(riffFile := choice), fs)
    ensures var s := Stored(f.(riffFile := choice), fs, md5);
            && (s.Some? ==> r.raised.None? && r.frame.synced && r.frame.offset == s.value)
            && (s.None? ==> r.frame.synced == f.synced && r.frame.offset == f.offset)
  {
    var f1 := Stop(f).(riffFile := choice, riff := loaded);
    var step := LoadOffset(f1, fs, md5);
    if step.raised.Some? then step else Step(ApplyOffset(step.frame), None, None)
  }

  /** `OnChooseVideo`: as `OnChooseRiff`, for the video side. */
  function OnChooseVideo(f: Frame, choice: Option<string>, loaded: Track, fs: FileSystem, md5: Digest)
    : (r: Step)
    ensures r.frame.videoFile == choice && r.frame.riffFile == f.riffFile
    ensures r.frame.video == loaded
    ensures r.frame.db == f.db && r.dialog.None?
    ensures r.frame.riff.len == f.riff.len && r.frame.riff.ready == f.riff.ready
    ensures r.frame.dbFile == f.dbFile
    ensures r.raised.Some? || !Engaged(r.frame) ==> r.frame.riff == Stop(f).riff
    ensures r.frame.riff == Stop(f).riff || r.frame.riff == Stop(f).riff.(pos := Target(r.frame))
    ensures r.raised.None? && Engaged(r.frame) ==> Drift(r.frame) <= DRIFT_TOLERANCE
    ensures r.raised.Some? <==> LoadRaises(f.(videoFile := choice), fs)
    ensures var s := Stored(f.(videoFile := choice), fs, md5);
            && (s.Some? ==> r.raised.None? && r.frame.synced && r.frame.offset == s.value)
            && (s.None? ==> r.frame.synced == f.synced && r.frame.offset == f.offset)
  {
    var f1 := Stop(f).(videoFile := choice, video := loaded);
    var step := LoadOffset(f1, fs, md5);
    if step.raised.Some? then step else Step(ApplyOffset(step.frame), None, None)
  }

  /**
   * Replacing the riff does not reset synchronisation: when the store has no
   * offset for the new pair, the flag and the old offset carry over.
   */
  lemma NewRiffKeepsSync(f: Frame, choice: string, loaded: Track, fs: FileSystem, md5: Digest)
    requires f.videoFile.Some? && f.dbFile.Some? && f.db.Some?
    requires f.videoFile.value in fs && choice in fs
    requires HashPair(fs, md5, f.videoFile.value, choice).value !in f.db.value.offsets
    ensures OnChooseRiff(f, Some(choice), loaded, fs, md5).raised.None?
    ensures OnChooseRiff(f, Some(choice), loaded, fs, md5).frame.synced == f.synced
    ensures OnChooseRiff(f, Some(choice), loaded, fs, md5).frame.offset == f.offset
  {
  }

  /** `OnVideoSliderUpdate`: seek the video, then correct the riff; a raise skips both. */
  function OnVideoSliderUpdate(f: Frame, pos: int): (r: Frame)
    ensures r == f.(video := r.video, riff := r.riff)
    ensures r.video.len == f.video.len && r.video.ready == f.video.ready
    ensures r.riff.len == f.riff.len && r.riff.ready == f.riff.ready
    ensures f.video.ready ==> r.video.pos == pos
    ensures !f.video.ready ==> r == f
    ensures f.video.ready && Engaged(f) ==>
      Abs(CorrectionTarget(pos, f.offset, f.riff.len) - r.riff.pos) <= DRIFT_TOLERANCE
    ensures !f.synced ==> r.riff == f.riff
    ensures !Engaged(f) ==> r.riff == f.riff
    ensures r.riff == f.riff || r.riff == f.riff.(pos := CorrectionTarget(pos, f.offset, f.riff.len))
  {
    if !f.video.ready then f
    else ApplyOffset(f.(video := f.video.(pos := pos)))
  }

  /** `OnRiffSliderUpdate`: seek the riff alone; a raise is swallowed. */
  function OnRiffSliderUpdate(f: Frame, pos: int): (r: Frame)
    ensures f.riff.ready ==> r == f.(riff := f.riff.(pos := pos))
    ensures !f.riff.ready ==> r == f
  {
    if f.riff.ready then f.(riff := f.riff.(pos := pos)) else f
  }

  /**
   * Saving, choosing another riff, and choosing the saved riff again brings
   * the saved offset back, synced, whatever the other riff did meanwhile.
   */
  lemma ChoosingBackRestoresOffset(f: Frame, other: Option<string>, otherTrack: Track, backTrack: Track,
                                   fs: FileSystem, md5: Digest)
    requires AllChosen(f) && OnSaveOffset(f, fs, md5).raised.None?
    ensures var away := OnChooseRiff(OnSaveOffset(f, fs, md5).frame, other, otherTrack, fs, md5).frame;
            var back := OnChooseRiff(away, f.riffFile, backTrack, fs, md5);
            back.raised.None? && back.frame.synced && back.frame.offset == f.offset
  {
    var saved := OnSaveOffset(f, fs, md5).frame;
    var away := OnChooseRiff(saved, other, otherTrack, fs, md5).frame;
    assert Stored(away.(riffFile := f.riffFile), fs, md5) == Some(f.offset);
  }

  /**
   * Opening, as the store file, a copy of the table a save wrote makes any
   * frame holding the same video and riff adopt the saved offset.
   */
  lemma ReopenedStoreRestoresOffset(f: Frame, g: Frame, filename: string, fs: FileSystem, md5: Digest)
    requires AllChosen(f) && OnSaveOffset(f, fs, md5).raised.None?
    requires g.videoFile == f.videoFile && g.riffFile == f.riffFile
    ensures var table := OnSaveOffset(f, fs, md5).frame.db.value.offsets;
            var r := SetDbFile(g, filename, Some(table), false, fs, md5);
            r.raised.None? && r.frame.synced && r.frame.offset == f.offset
  {
    var table := OnSaveOffset(f, fs, md5).frame.db.value.offsets;
    var r := SetDbFile(g, filename, Some(table), false, fs, md5);
    assert Stored(g.(dbFile := Some(filename), db := r.frame.db), fs, md5) == Some(f.offset);
  }

  /**
   * A session through the handlers: open a new store file, choose the video
   * and the riff (nothing stored, so unsynced at 0), seek the video to
   * `videoAt` and the riff to `riffAt`, enable sync and save.
   */
  function FirstSession(fs: FileSystem, md5: Digest, video: string, riff: string, dbPath: string,
                        videoTrack: Track, riffTrack: Track, videoAt: int, riffAt: int): Step
  {
    var withDb := SetDbFile(NewFrame(videoTrack, riffTrack), dbPath, None, false, fs, md5).frame;
    var withVideo := OnChooseVideo(withDb, Some(video), videoTrack, fs, md5).frame;
    var withRiff := OnChooseRiff(withVideo, Some(riff), riffTrack, fs, md5).frame;
    var seeked := OnRiffSliderUpdate(OnVideoSliderUpdate(withRiff, videoAt), riffAt);
    OnSaveOffset(OnToggleSync(seeked), fs, md5)
  }

  /** A later session: reopen the store file holding `table`, choose the video, then the riff. */
  function SecondSession(fs: FileSystem, md5: Digest, video: string, riff: string, dbPath: string,
                         table: Table<int>, videoTrack: Track, riffTrack: Track): Step
  {
    var withDb := SetDbFile(NewFrame(videoTrack, riffTrack), dbPath, Some(table), false, fs, md5).frame;
    var withVideo := OnChooseVideo(withDb, Some(video), videoTrack, fs, md5).frame;
    OnChooseRiff(withVideo, Some(riff), riffTrack, fs, md5)
  }

  /** The first session stores the measured drift, `riffAt - videoAt`, for the pair. */
  lemma FirstSessionStoresDrift(fs: FileSystem, md5: Digest, video: string, riff: string, dbPath: string,
                                videoLen: int, riffLen: int, videoAt: int, riffAt: int)
    requires video in fs && riff in fs
    ensures var saved := FirstSession(fs, md5, video, riff, dbPath,
                                      Track(0, videoLen, true), Track(0, riffLen, true), videoAt, riffAt);
            && saved.raised.None? && saved.frame.db.Some?
            && HashPair(fs, md5, video, riff).value in saved.frame.db.value.offsets
            && saved.frame.db.value.offsets[HashPair(fs, md5, video, riff).value] == riffAt - videoAt
  {
    var videoTrack, riffTrack := Track(0, videoLen, true), Track(0, riffLen, true);
    var withDb := SetDbFile(NewFrame(videoTrack, riffTrack), dbPath, None, false, fs, md5).frame;
    var withVideo := OnChooseVideo(withDb, Some(video), videoTrack, fs, md5).frame;
    var withRiff := OnChooseRiff(withVideo, Some(riff), riffTrack, fs, md5).frame;
    assert !withRiff.synced && withRiff.video.ready && withRiff.riff.ready;
    var seeked := OnRiffSliderUpdate(OnVideoSliderUpdate(withRiff, videoAt), riffAt);
    assert seeked.video.pos == videoAt && seeked.riff.pos == riffAt && !seeked.synced;
    assert CalculateOffset(seeked) == riffAt - videoAt;
  }

  /**
   * The whole life of an offset, through the handlers only: the first session
   * measures 2500 ms with the video at 5000 and the riff at 7500 and saves
   * it; a later session on the saved table, choosing the same files, comes
   * up synced on 2500 without measuring.
   */
  lemma OffsetLifecycle(fs: FileSystem, md5: Digest, video: string, riff: string,
                        dbPath: string, videoLen: int, riffLen: int)
    requires video in fs && riff in fs
    ensures var saved := FirstSession(fs, md5, video, riff, dbPath,
                                      Track(0, videoLen, true), Track(0, riffLen, true), 5000, 7500);
            && saved.raised.None? && saved.frame.db.Some?
            && var later := SecondSession(fs, md5, video, riff, dbPath, saved.frame.db.value.offsets,
                                          Track(0, videoLen, true), Track(0, riffLen, true));
               later.raised.None? && later.frame.synced && later.frame.offset == 2500
  {
    FirstSessionStoresDrift(fs, md5, video, riff, dbPath, videoLen, riffLen, 5000, 7500);
    var saved := FirstSession(fs, md5, video, riff, dbPath,
                              Track(0, videoLen, true), Track(0, riffLen, true), 5000, 7500);
    var table := saved.frame.db.value.offsets;
    var videoTrack, riffTrack := Track(0, videoLen, true), Track(0, riffLen, true);
    var withDb := SetDbFile(NewFrame(videoTrack, riffTrack), dbPath, Some(table), false, fs, md5).frame;
    var withVideo := OnChooseVideo(withDb, Some(video), videoTrack, fs, md5).frame;
    assert withVideo.db == Some(LocalDb(dbPath, table)) && withVideo.dbFile == Some(dbPath);
    assert Stored(withVideo.(riffFile := Some(riff)), fs, md5) == Some(2500);
  }
}

=== FILE: wrappers.dfy ===
/** Failure-carrying values shared by every module of the model. */
module Wrappers {

  /** Python's `None` versus a present value. */
  datatype Option<+T> = None | Some(value: T)

  /** A computation that either produced a value or raised an exception. */
  datatype Result<+T, +E> = Success(value: T) | Failure(error: E)
}
